=== FILE: README.md ===
# geotransform-tools: geometry construction and transformation dispatch

This project is a Dafny model of the core of geotransform-tools, a Python library that wraps GDAL/OGR
geometries for point, line and polygon records from an upstream API, and reprojects or transforms them
between spatial references.

The model covers:

- **Geometry helpers** (`GeometryUtils`): the helpers in `utils/geometry_utils.py`.
  - parsing API longitude/latitude JSON into coordinate entries
  - resolving an EPSG code to a spatial reference in traditional GIS axis order
  - building engine points, line strings and single-ring closed polygons
  - converting to shapely shapes
- **Geometry classes**: `BaseGeometry`, `PointGeometry`, `LineGeometry` and `PolygonGeometry`.
  - their constructors, with the precedence of their inputs
  - the derived properties (`points`, `pointCount`, `X`/`Y`, `firstPoint`/`lastPoint`, `lineType`, `partCount`)
  - the ESRI JSON envelopes
- **`CoordinateTransformation`**: the dispatcher.
  - setup resolves the target and intermediate references, picks a transformer candidate by Python index, and lets a pipeline string override the strategy
  - `transform` applies one of REPROJECT, REPROJECT_WITH_TRANSFORM, PROJ_STRING or REPROJECT_WITH_INTERMEDIATE
  - `transform_geometry` rebuilds a point, line or polygon through a transformer, chosen by class
- **`GeometryTransformer`**: the simpler dispatcher, with strategies SIMPLE and PROJ.
  - it chooses the rebuilding branch by the `geometry_type` tag instead of by class

## How the model is organised

- **State is immutable.** A Python object that is mutated in place is a `GeomObject` record. An operation that assigns attributes returns the updated record.
- **Exceptions are values.** They are `Result` values over `Error`: ValueError, TypeError, IndexError, AttributeError, or EngineError for anything raised inside GDAL, pyproj or shapely.
- **Partial failure is visible.** A transform returns `Applied(geometry, raised)`. So a call that raises after it has already changed the geometry shows both facts.
- **The engine is abstract.** The `Proj` record holds its services as function parameters:
  - the verdict of `Validate()` on an imported code
  - per-vertex reprojection, used for `TransformTo`
  - the ranked `TransformerGroup` candidates
  - `Transformer.from_pipeline`
- **Parsers are abstract.** The WKB and GeoJSON parsers are also parameters (`LineGeometry.Parsers`).
- **Coordinates are opaque.** They are `real` values that are only moved and compared, never computed with.
- **`get_polygon` is modelled once.** `geometry_driver.get_polygon` (imported by `polygon_geometry.py` and `coordinate_transformation.py`) is not part of this model. It is taken to be the `get_polygon` of `utils/geometry_utils.py`. `geometry_transformer.py` carries verbatim copies of `get_polygon` and `srs_from_epsg`, so a single definition (`GetPolygon`, `SrsFromEpsg`) models both copies.

Behaviours of the code worth noting:

- **Polygon JSON rings.** `rings` in `PolygonGeometry.JSON` is the engine's exported coordinates as they are: an array of rings. It is not a flat list of `[x, y]` pairs.
- **Missing reference.** A geometry whose handle has no reference raises AttributeError when its JSON is read.
- **Base JSON without a handle.** `BaseGeometry.JSON` gives nothing when there is no handle.
- **Out-of-range candidate index.** It is not a setup error. Setup logs it and stores no transformer. The failure surfaces as AttributeError at the first transform.
- **REPROJECT_WITH_INTERMEDIATE is not all-or-nothing.** The first step reprojects the geometry in place. When the second step raises, the geometry stays reprojected to the intermediate reference.
- **Transformer direction.** REPROJECT_WITH_TRANSFORM looks up its transformer from the intermediate code to the target code, as the intermediate strategy does. A lookup from an absent or falsy code is built from text such as "epsg:None", which the library rejects. So REPROJECT_WITH_TRANSFORM needs an intermediate code to set up at all.
- **Empty line strings.** GDAL's `GetPoints` gives `None` for a line string without vertices. So `firstPoint` and `lastPoint` of such a line raise TypeError rather than IndexError.

## Model

| member | source | states |
|---|---|---|
| Engine.Stamp | geometry/line_geometry.py:22-29 | assigning a reference to a parsed handle sets exactly that reference and keeps its kind and its exported coordinates |
| Engine.HandlePoints | geometry/base_geometry.py:25-28 | a point lists its one vertex and a line string with vertices lists them; there is no vertex list exactly for a polygon or an empty line string, so a list given is never empty |
| Engine.HandlePointCount | geometry/base_geometry.py:30-33 | the engine's point count is the length of the vertex list, and 0 for a polygon; it is 0 exactly when there is no vertex list |
| Engine.GeometryName | geometry/line_geometry.py:38 | the engine names a point POINT, a line string LINESTRING and a polygon POLYGON, and each name belongs to exactly one kind |
| Engine.GeometryCount | geometry/line_geometry.py:56-59 | a polygon's sub-geometry count is its number of rings, and a point's or line string's is 0 |
| Engine.ReadXY | geometry/point_geometry.py:23-29 | X and Y are a point's coordinates or a line's first vertex; an empty line or a polygon raises inside the engine |
| Engine.RingPoints | geometry/polygon_geometry.py:29-30 | asking a point or line string for ring 0 raises inside the engine; a polygon without rings reads off `None` and raises AttributeError; otherwise ring 0's vertex list, which is nothing exactly when the ring has no vertices |
| Engine.ExportCoordinates | geometry/base_geometry.py:41-44 | the exported coordinates are the position of a point's x and y, the positions of a line in order, and one array of positions per polygon ring |
| Engine.CloseRing | utils/geometry_utils.py:205-210 | the ring comes out closed, starting with the given vertices in order, with at most the first vertex appended, and a closed ring is left exactly as it is |
| Engine.MapVertices | coordinate_transformation/coordinate_transformation.py:131-137 | a vertex rewrite succeeds exactly when every vertex maps; the result keeps count and order; a failure is the first failing vertex's error |
| Engine.MapRings | coordinate_transformation/coordinate_transformation.py:61 | a polygon is rewritten ring by ring, keeping the number of rings; it succeeds exactly when every ring does |
| Engine.TransformTo | coordinate_transformation/coordinate_transformation.py:54-61 | a handle with no reference cannot be reprojected; otherwise every vertex is projected from the handle's reference to the target, the call succeeds exactly when every vertex projects and raises the first failure, and the result keeps the kind and every vertex count and carries the target |
| Engine.MapKeepsClosed | coordinate_transformation/coordinate_transformation.py:138-141 | rewriting a closed ring gives a closed ring |
| Engine.MapVerticesCompose | coordinate_transformation/coordinate_transformation.py:74-84 | rewriting with one transformer and then another is one rewrite with their composition |
| Engine.MapVerticesRoundTrip | coordinate_transformation/coordinate_transformation.py:131-137 | rewriting with a transformer and then with one that undoes it on every vertex gives the original vertices back |
| GeometryUtils.LonLatPairs | utils/geometry_utils.py:113-117 | one `[longitude, latitude]` entry per API record, in input order |
| GeometryUtils.GetCoordinates | utils/geometry_utils.py:109-123 | no JSON gives nothing; a single record gives a one-entry list; a record list gives its entries in order |
| GeometryUtils.ParseDecimal | utils/geometry_utils.py:135-136 | text coerces to a code exactly when it is a non-empty string of decimal digits; the code is its positional value (`ParseDecimalPositional`) |
| GeometryUtils.DecimalText | utils/geometry_utils.py:135-136 | the decimal text of a code is a non-empty digit string |
| GeometryUtils.ParseDecimalText | utils/geometry_utils.py:135-136 | coercing the decimal text of a code gives the code back |
| GeometryUtils.PositionalAppend | utils/geometry_utils.py:135-136 | appending a digit to a digit string multiplies its positional value by ten and adds the digit |
| GeometryUtils.ParseDecimalPositional | utils/geometry_utils.py:135-136 | coercing any digit string gives its positional value read from the left, leading zeros included |
| GeometryUtils.LeadingZero | utils/geometry_utils.py:135-136 | a leading zero does not change the coerced code, so "04326" and "4326" give the same code |
| GeometryUtils.CoerceEpsg | utils/geometry_utils.py:135-136 | an int code is kept; text is coerced, and text that is not a number raises ValueError |
| GeometryUtils.SrsFromEpsg | utils/geometry_utils.py:135-142 | the reference resolves exactly when the code coerces and the engine does not report it corrupt; it carries the coerced code in traditional GIS axis order; the failure is ValueError |
| GeometryUtils.SrsFromEpsgTextAgrees | utils/geometry_utils.py:135-136 | a code given as an int and as its decimal text resolve to the same reference |
| GeometryUtils.GetPoint | utils/geometry_utils.py:158-170 | JSON together with coordinates raises ValueError; JSON alone gives a point at its longitude and latitude; coordinates alone give a point at their first two components; neither gives nothing |
| GeometryUtils.PathFromRecords | utils/geometry_utils.py:187-191 | the path has one vertex per record, at that record's longitude and latitude, in order |
| GeometryUtils.GetLine | utils/geometry_utils.py:183-193 | no JSON gives nothing; a record list gives a line string carrying the reference, with one vertex per record in order; a single dict raises TypeError |
| GeometryUtils.EntriesToVertices | utils/geometry_utils.py:206-207 | reading entries succeeds exactly when every entry has two components, keeping count and order; otherwise TypeError |
| GeometryUtils.VerticesToEntries | coordinate_transformation/coordinate_transformation.py:140 | a vertex list is written out as one `[x, y]` entry per vertex, in order |
| GeometryUtils.EntriesRoundTrip | coordinate_transformation/coordinate_transformation.py:139-140 | vertices written out as entries read back unchanged |
| GeometryUtils.GetPolygon | utils/geometry_utils.py:205-212 | a polygon of exactly one closed ring carrying the reference, whose ring starts with the given coordinates in order with at most the first vertex appended; a malformed entry raises TypeError |
| GeometryUtils.GetPolygonOfClosedRing | utils/geometry_utils.py:205-212 | a ring that is already closed becomes the polygon's ring unchanged |
| GeometryUtils.ToShapely | utils/geometry_utils.py:88-97 | the tag picks the shape: point, line string or exterior ring; an unknown tag gives nothing; a recognised tag with no handle raises AttributeError |
| GeometryUtils.MapShape | coordinate_transformation/coordinate_transformation.py:131 | transforming a shape rewrites every vertex and keeps the kind of shape; it succeeds exactly when every vertex maps; nothing to transform raises AttributeError |
| GeometryUtils.ShapeCoords | coordinate_transformation/coordinate_transformation.py:134 | a point or line string has a coordinate sequence; a polygon has none and shapely raises |
| GeometryUtils.ShapeExterior | coordinate_transformation/coordinate_transformation.py:140 | only a polygon has an exterior ring; reading one elsewhere raises AttributeError |
| BaseGeometry.Init | geometry/base_geometry.py:9-18 | a new object has no handle and keeps JSON only when it is truthy; coordinates are parsed from the JSON only when none were given, and otherwise kept as given; the reference lands in the setter's field |
| BaseGeometry.ClassGeometryType | geometry/base_geometry.py:7 | the tag "point" belongs to the base class and to points (point_geometry.py:8), "polyline" to lines only (line_geometry.py:9), "polygon" to polygons only (polygon_geometry.py:12) |
| BaseGeometry.SpatialReferenceOf | geometry/base_geometry.py:20-23 | the reported reference is the handle's own, and nothing without a handle |
| BaseGeometry.SetSpatialReference | geometry/base_geometry.py:60-62 | the setter writes its private field and does not change the reported reference |
| BaseGeometry.Points | geometry/base_geometry.py:25-28 | `points` is the handle's vertex list, and nothing without a handle; a list it gives is never empty |
| BaseGeometry.PointCount | geometry/base_geometry.py:30-33 | `pointCount` is present exactly when there is a handle, and equals the length of `points` whenever there is a vertex list; with a handle, it is 0 exactly when `points` is nothing |
| BaseGeometry.Json | geometry/base_geometry.py:35-47 | nothing without a handle; otherwise `paths` wraps the exported coordinates in one array under the reference's code; no reference raises AttributeError |
| BaseGeometry.JsonPathIsPoints | geometry/base_geometry.py:41-47 | for a line string with vertices, the single path of the JSON is exactly `points`, position by position |
| BaseGeometry.ToShapelyOf | geometry/base_geometry.py:49-55 | a line converts to its line string and a polygon to its first ring, chosen by the object's own tag |
| PointGeometry.Construct | geometry/point_geometry.py:11-21 | a one-entry coordinate list builds the point from that entry, and an entry of one component raises IndexError; API JSON alone builds the point at its longitude and latitude; anything else builds no handle; the base attributes are as `Init` sets them |
| PointGeometry.ConstructAsWritten | geometry/point_geometry.py:11-21 | as written, every input that reaches a `get_point` call raises TypeError, and the others build no handle |
| PointGeometry.NoPointAsWritten | geometry/point_geometry.py:15 | an API record and a one-entry coordinate list both raise as written, where the intended constructor builds the point |
| PointGeometry.ConstructNeverAmbiguous | geometry/point_geometry.py:11-21 | construction never raises the ambiguity ValueError of `get_point` |
| PointGeometry.X | geometry/point_geometry.py:23-25 | X is the point's x; no handle, or an object of another class, raises AttributeError |
| PointGeometry.Y | geometry/point_geometry.py:27-29 | Y is the point's y, under the same conditions as X |
| PointGeometry.Json | geometry/point_geometry.py:35-42 | the point JSON holds X, Y and the reference's code; it succeeds on a point handle exactly when the handle has a reference; no handle raises AttributeError |
| PointGeometry.PointFromRecordAgrees | geometry/point_geometry.py:11-42 | a point built from an API record has that record as its one coordinate entry, its handle at the same place, and JSON giving the record back |
| PointGeometry.ConstructWellFormed | geometry/point_geometry.py:11-21 | every point the constructor builds holds a point handle under the tag "point" |
| LineGeometry.Construct | geometry/line_geometry.py:18-33 | with neither JSON nor coordinates there is no handle; otherwise WKB beats engine JSON, which beats API JSON; parsed handles carry the reference; the engine JSON branch replaces `geom_json` |
| LineGeometry.CoordinatesAloneBuildNothing | geometry/line_geometry.py:32-33 | coordinates without JSON build no handle |
| LineGeometry.LineFromRecordsAgrees | geometry/line_geometry.py:18-33 | a line from API records has coordinates and vertices agreeing entry by entry, carries the reference, and lists the records' positions in order |
| LineGeometry.FirstPoint | geometry/line_geometry.py:43-45 | only a line object has the property, and any other raises AttributeError; on a line, the first vertex, with TypeError exactly when `points` is nothing, that is with no handle or an empty line string |
| LineGeometry.LastPoint | geometry/line_geometry.py:47-49 | the last vertex, under the same conditions as `firstPoint` |
| LineGeometry.EndPointsOfRecords | geometry/line_geometry.py:43-49 | the end points of a line from API records are its first and last record |
| LineGeometry.EmptyLineHasNoEndPoints | geometry/line_geometry.py:18-49 | a line built from no API records has a handle with point count 0, and both end points raise TypeError |
| LineGeometry.LineType | geometry/line_geometry.py:35-41 | the geometry name is present exactly when there is a handle, and is LINESTRING for a line string |
| LineGeometry.PartCount | geometry/line_geometry.py:56-59 | the part count is present exactly when there is a handle, and is 0 for points and line strings |
| LineGeometry.LeadingPairs | utils/geometry_utils.py:62-63 | the first two components of each entry, in order; an entry with fewer than two raises IndexError |
| LineGeometry.GetLineFromPointList | utils/geometry_utils.py:51-66 | a line object with no JSON or coordinates, whose handle carries the reference and one vertex per entry, in order |
| LineGeometry.LineFromVerticesAgrees | utils/geometry_utils.py:51-66 | building from the entries of some vertices gives a line whose handle holds exactly those vertices and the reference |
| LineGeometry.EmptyLineIsBaseState | utils/geometry_utils.py:60 | the argument-less line constructor gives the bare base state |
| PolygonGeometry.Construct | geometry/polygon_geometry.py:15-21 | truthy coordinates without JSON build the polygon through `get_polygon`; any other input builds no handle |
| PolygonGeometry.JsonBuildsNothing | geometry/polygon_geometry.py:15-21 | supplying JSON, with or without coordinates, builds no handle |
| PolygonGeometry.Points | geometry/polygon_geometry.py:23-30 | `points` is ring 0's vertex list, and nothing without a handle or when ring 0 has no vertices; a polygon without rings raises AttributeError, and a handle of another kind raises inside the engine |
| PolygonGeometry.Json | geometry/polygon_geometry.py:32-44 | nothing without a handle; otherwise `rings` is the exported coordinates under the reference's code; no reference raises AttributeError |
| PolygonGeometry.PolygonFromVerticesAgrees | geometry/polygon_geometry.py:15-44 | a polygon from a vertex list is well formed; `points` is the closed ring starting with those vertices; `pointCount` is 0; the JSON holds that one ring |
| PolygonGeometry.ConstructWellFormed | geometry/polygon_geometry.py:15-21 | every polygon the constructor builds holds one closed ring |
| Reprojection.Settle | coordinate_transformation/coordinate_transformation.py:47-50 | a single-step call that raises leaves the geometry untouched; one that succeeds leaves the new state |
| Reprojection.Reproject | coordinate_transformation/coordinate_transformation.py:54-61 | only the handle changes, through the engine's reprojection, and ends carrying the target; no handle or no target raises AttributeError |
| Reprojection.TransformToKeepsClosed | coordinate_transformation/coordinate_transformation.py:61 | reprojection keeps every polygon ring closed |
| Reprojection.ReprojectWellFormed | coordinate_transformation/coordinate_transformation.py:54-61 | reprojection keeps a geometry well formed |
| Reprojection.TransformerAttributes | coordinate_transformation/coordinate_transformation.py:70-72 | the transformer and the target can be read exactly when setup assigned both; otherwise reading them raises AttributeError |
| Reprojection.RequireTransformer | coordinate_transformation/coordinate_transformation.py:125 | calling `transform` on no transformer raises AttributeError |
| Reprojection.RebuildPoint | coordinate_transformation/coordinate_transformation.py:124-129 | a point becomes the transformer's image of (X, Y), carrying the target, and nothing else changes; a transformer failure is raised as is |
| Reprojection.RebuildLine | coordinate_transformation/coordinate_transformation.py:130-137 | a line becomes a line string carrying the target, with one transformed vertex per vertex, in order; it succeeds exactly when every vertex maps, and nothing else changes |
| Reprojection.RebuildPolygon | coordinate_transformation/coordinate_transformation.py:138-141 | a polygon becomes one closed ring carrying the target: its transformed exterior, closed; it succeeds exactly when every vertex maps |
| Reprojection.RebuildPolygonOfClosedRing | coordinate_transformation/coordinate_transformation.py:138-141 | a closed exterior is carried over vertex for vertex, with no vertex added |
| CoordinateTransformation.CreateTransformation | coordinate_transformation/coordinate_transformation.py:86-105 | a candidate is returned exactly when the index lies in Python's range [-n, n), and it is the candidate at that position counted from the front or the back; a failing lookup raises |
| CoordinateTransformation.NegativeIndexAlias | coordinate_transformation/coordinate_transformation.py:102 | index k and index k - n select the same candidate |
| CoordinateTransformation.FromProjStringAsWritten | coordinate_transformation/coordinate_transformation.py:107-112 | as written, a pipeline that does not compile raises AttributeError |
| CoordinateTransformation.FromProjString | coordinate_transformation/coordinate_transformation.py:107-112 | as intended, a compiled pipeline is the one the code returns, and a pipeline that does not compile gives no transformer exactly where the code raises |
| CoordinateTransformation.UncompiledPipelineRaisesAsWritten | coordinate_transformation/coordinate_transformation.py:38-40 | for a pipeline that does not compile, the code as written raises, while intended setup stores no transformer |
| CoordinateTransformation.Candidate | coordinate_transformation/coordinate_transformation.py:31-37 | both lookups in setup run from the intermediate code to the target code, whatever the type, and pick by Python indexing into that ranked list; a failing lookup raises |
| CoordinateTransformation.TransformWithoutIntermediateFailsAtSetup | coordinate_transformation/coordinate_transformation.py:31-33 | when the library rejects lookups from an absent code (coordinate_transformation.py:96-97 builds "epsg:None"), REPROJECT_WITH_TRANSFORM without an intermediate code raises at setup, whatever the index |
| CoordinateTransformation.Setup | coordinate_transformation/coordinate_transformation.py:10-40 | with the corrected `FromProjString`, setup fails exactly when a truthy code does not resolve or a required candidate lookup raises; a pipeline string overrides the type and the transformer; otherwise the transformer is the intermediate-to-target candidate whenever the type or an intermediate code asks for one |
| CoordinateTransformation.TransformGeometry | coordinate_transformation/coordinate_transformation.py:114-141 | the class picks the rebuilding branch, and an object of the base class is left unchanged |
| CoordinateTransformation.TransformGeometryWellFormed | coordinate_transformation/coordinate_transformation.py:114-141 | rebuilding keeps a geometry well formed and stamps the target on points, lines and polygons |
| CoordinateTransformation.TransformGeometryRoundTrip | coordinate_transformation/coordinate_transformation.py:114-141 | rebuilding with a transformer and then with its inverse, back to the original reference, restores a point, line or polygon exactly |
| CoordinateTransformation.ReprojectWithTransform | coordinate_transformation/coordinate_transformation.py:63-72 | a missing transformer or target attribute raises AttributeError; otherwise the geometry is rebuilt through the transformer |
| CoordinateTransformation.Transform | coordinate_transformation/coordinate_transformation.py:42-84 | each type goes to its strategy and an unknown type changes nothing; a single-step strategy that raises leaves the geometry untouched; the two-step strategy rebuilds the intermediate result |
| CoordinateTransformation.TransformWellFormed | coordinate_transformation/coordinate_transformation.py:42-84 | every strategy keeps a geometry well formed, whether or not it raises |
| CoordinateTransformation.OutOfRangeIndexFailsAtTransform | coordinate_transformation/coordinate_transformation.py:31-33 | with an intermediate code configured and resolvable, an out-of-range index gives a successful setup with no transformer, and the next transform of a point raises AttributeError and leaves it untouched |
| CoordinateTransformation.UncompiledPipelineFailsAtTransform | coordinate_transformation/coordinate_transformation.py:38-50 | as intended, a pipeline that does not compile surfaces as AttributeError at the first transform of a point, line or polygon |
| CoordinateTransformation.IntermediateFailureKeepsFirstStep | coordinate_transformation/coordinate_transformation.py:74-84 | when the second step raises, the geometry stays reprojected to the intermediate reference |
| CoordinateTransformation.IntermediateLineComposes | coordinate_transformation/coordinate_transformation.py:74-84 | when the two-step strategy raises nothing on a line string, its vertices are one rewrite: projection to the intermediate reference followed by the transformer, stamped with the target |
| GeometryTransformer.Setup | geometry_transformer/geometry_transformer.py:37-45 | the type is PROJ exactly when a pipeline string is given, and SIMPLE otherwise; only an invalid target code raises, with ValueError; the transformer is assigned exactly when a pipeline is given |
| GeometryTransformer.TransformGeometry | geometry_transformer/geometry_transformer.py:68-87 | the tag picks the rebuilding branch, and an unknown tag leaves the geometry unchanged |
| GeometryTransformer.DispatchAgrees | geometry_transformer/geometry_transformer.py:68-87 | on points, lines and polygons the tag dispatch agrees with the class dispatch |
| GeometryTransformer.BaseGeometryDispatchDiffers | geometry_transformer/geometry_transformer.py:71-72 | a bare base geometry, tagged "point", raises AttributeError here but is left unchanged by the class dispatch |
| GeometryTransformer.ReprojectWithTransform | geometry_transformer/geometry_transformer.py:56-59 | a missing transformer or target attribute raises AttributeError; otherwise the geometry is rebuilt by its tag |
| GeometryTransformer.Transform | geometry_transformer/geometry_transformer.py:47-54 | SIMPLE reprojects and PROJ rebuilds; any other type changes nothing; a call that raises leaves the geometry untouched |
| GeometryTransformer.UncompiledPipelineFailsAtTransform | geometry_transformer/geometry_transformer.py:61-66 | a pipeline that does not compile is no setup error; it raises AttributeError at the first transform and leaves the geometry untouched |
| GeometryTransformer.AgreesWithCoordinateTransformation | geometry_transformer/geometry_transformer.py:47-87 | with the same transformer and target, both dispatchers leave a point, line or polygon in the same state and raise the same exception |
| GeometryTransformer.TransformWellFormed | geometry_transformer/geometry_transformer.py:47-59 | every strategy keeps a geometry well formed, whether or not it raises |

## Findings

| source | as written | input that shows it | evidently intended | confidence | as-written member | corrected member |
|---|---|---|---|---|---|---|
| geometry/point_geometry.py:14-21 | `get_point` is called with `geom_json` left out (and at line 21 with `coordinates` left out), although it declares no defaults, so the call raises TypeError | `PointGeometry(geom_json={"longitude": 1, "latitude": 2})` | the omitted argument is absent (`None`) and the point is built | high; not executed | PointGeometry.ConstructAsWritten, PointGeometry.NoPointAsWritten | PointGeometry.Construct, PointGeometry.PointFromRecordAgrees |
| coordinate_transformation/coordinate_transformation.py:112 | the failure branch logs through `cls.logger`, which the class does not define, so it raises AttributeError | a `proj_string` that `from_pipeline` rejects | log the failure and return `None`, as `geometry_transformer.py:61-66` does | high; not executed | CoordinateTransformation.FromProjStringAsWritten, CoordinateTransformation.UncompiledPipelineRaisesAsWritten | CoordinateTransformation.FromProjString, CoordinateTransformation.UncompiledPipelineFailsAtTransform |

## Left out

- **Projection mathematics.** GDAL `TransformTo`, `TransformerGroup` ranking and `Transformer.from_pipeline` are foreign library calls. They are parameters of the model (`Reprojection.Proj`). `Engine.TransformTo` is stated in terms of the per-vertex `project` parameter, so the model does not say how GDAL projects a single vertex. `transformerGroup` is constrained only where a lemma assumes `CoordinateTransformation.LookupRejectsAbsentCodes`, the library's rejection of lookups from an absent code.
- **`Validate()`.** Its verdict on an imported EPSG code is a parameter (`reportsCorrupt`).
- **Floating point.** `Length()`, `LineGeometry.length`, `position_along_line`, `segment_along_line` and `feet_to_meters` (`utils/geometry_utils.py:14-48`, `69-79`) depend on engine floating-point geometry and are not modelled.
- **Engine parsers and serialisers.** The WKB and GeoJSON decoders are parameters (`LineGeometry.Parsers`). `ExportToJson` and `json.dumps` text are modelled as structured values (`Engine.Nested`, `BaseGeometry.EsriJson`), not as strings.
- **Z coordinates.** `FlattenTo2D` and `Z` are not modelled; every handle is two-dimensional.
- **`int()` on strings.** Coercion covers plain decimal digits only, without signs, whitespace or underscores.
- **Logging and printing.** A logged failure is modelled as its `None` outcome. The authority code is modelled as an int rather than the engine's text.
- **Module-load side effects.** `speedups.disable`, `set_network_enabled` and `ogr.UseExceptions` are not modelled. `geometry/__init__.py` only re-exports names.
- **Missing keys.** An API record without `longitude` or `latitude` (a KeyError) cannot be expressed: records always carry both keys.
- **shapely validity rules.** shapely's minimum vertex counts for line strings and polygons, and its batching of `transform` calls, are not modelled. Shapes are rewritten vertex by vertex.
- **Handle truthiness.** An engine handle is taken to be truthy whenever it exists.
- **`geometry_driver`.** This module is not part of the model; its `get_polygon` is taken to be the one in `utils/geometry_utils.py`.
- BaseGeometry.ToShapelyOf: states only the line and polygon conversions; the point case and the error cases are stated on `GeometryUtils.ToShapely`, which it calls.
- Reprojection.RebuildLine: the success condition is stated only for an object tagged "polyline" that holds a line string; other handles are covered only by "no handle raises".
- Reprojection.RebuildPolygon: the success condition is stated only for an object tagged "polygon" that holds a polygon with a ring.

=== FILE: base_geometry.dfy ===
/** `BaseGeometry`: the state every geometry object holds, the constructor they all run first, and the
    derived properties that read the engine handle. A Python object mutated in place is modelled as
    an immutable record; an operation that assigns an attribute returns the updated record. */
module BaseGeometry {
  import opened Wrappers
  import opened Engine
  import opened GeometryUtils

  /** The Python class of a geometry object. */
  datatype GeomClass = BaseClass | PointClass | LineClass | PolygonClass

  /** The class attribute `geometry_type`. The base class declares "point", so a bare base geometry
      shares its tag with a point. */
  function ClassGeometryType(c: GeomClass): (r: string)
    ensures r == "point" <==> c == BaseClass || c == PointClass
    ensures r == "polyline" <==> c == LineClass
    ensures r == "polygon" <==> c == PolygonClass
  {
    match c
    case BaseClass => "point"
    case PointClass => "point"
    case LineClass => "polyline"
    case PolygonClass => "polygon"
  }

  /** What the `geom_json` attribute can hold: the API JSON a geometry was given, or the engine JSON
      text a line was parsed from. */
  datatype JsonSource = FromApi(json: GeomJson) | FromOgrJson(text: string)

  /** The attributes of a geometry object. `geometryType` starts as the class attribute;
      `spatialReferenceField` is `_spatial_reference`, written by the property setter;
      `geometry` is the engine handle, `None` while no geometry has been built. */
  datatype GeomObject = GeomObject(
    cls: GeomClass,
    geometryType: string,
    geomJson: Option<JsonSource>,
    coordinates: Option<CoordList>,
    spatialReferenceField: Option<SpatialReference>,
    geometry: Option<Handle>)

  /** `BaseGeometry.__init__`: no handle yet; `geom_json` kept only when truthy; `coordinates` parsed
      from `geom_json` only when the JSON is truthy and no coordinates were given, and otherwise kept
      exactly as given; the reference goes through the setter into `_spatial_reference`. */
  function Init(cls: GeomClass, geomJson: Option<GeomJson>, coordinates: Option<CoordList>,
                srs: Option<SpatialReference>): (o: GeomObject)
    ensures o.cls == cls && o.geometryType == ClassGeometryType(cls)
    ensures o.geometry.None?
    ensures o.geomJson.Some? <==> JsonTruthy(geomJson)
    ensures o.geomJson.Some? ==> o.geomJson == Some(FromApi(geomJson.value))
    ensures JsonTruthy(geomJson) && coordinates.None? ==> o.coordinates == GetCoordinates(geomJson)
    ensures !(JsonTruthy(geomJson) && coordinates.None?) ==> o.coordinates == coordinates
    ensures o.spatialReferenceField == srs
  {
    var unset := GeomObject(cls, ClassGeometryType(cls), None, None, None, None);
    var withRef := SetSpatialReference(unset, srs);
    var withJson := if JsonTruthy(geomJson) then withRef.(geomJson := Some(FromApi(geomJson.value))) else withRef;
    if JsonTruthy(geomJson) && coordinates.None? then withJson.(coordinates := GetCoordinates(geomJson))
    else withJson.(coordinates := coordinates)
  }

  /** The `spatial_reference` getter: the reference stamped on the handle; nothing without a handle.
      It never reads `_spatial_reference`. */
  function SpatialReferenceOf(o: GeomObject): (r: Option<SpatialReference>)
    ensures o.geometry.None? ==> r.None?
    ensures o.geometry.Some? ==> r == o.geometry.value.srs
  {
    match o.geometry
    case None => None
    case Some(h) => h.srs
  }

  /** The `spatial_reference` setter: writes `_spatial_reference`, which the getter does not report. */
  function SetSpatialReference(o: GeomObject, v: Option<SpatialReference>): (r: GeomObject)
    ensures r.spatialReferenceField == v
    ensures SpatialReferenceOf(r) == SpatialReferenceOf(o)
    ensures r.geometry == o.geometry && r.coordinates == o.coordinates && r.geomJson == o.geomJson
  {
    o.(spatialReferenceField := v)
  }

  /** `points`: the handle's vertex list; nothing without a handle. */
  function Points(o: GeomObject): (r: Option<seq<Vertex>>)
    ensures o.geometry.None? ==> r.None?
    ensures o.geometry.Some? ==> r == HandlePoints(o.geometry.value)
    ensures r.Some? ==> |r.value| > 0
  {
    match o.geometry
    case None => None
    case Some(h) => HandlePoints(h)
  }

  /** `pointCount`: the handle's point count; nothing without a handle. */
  function PointCount(o: GeomObject): (r: Option<nat>)
    ensures o.geometry.None? <==> r.None?
    ensures Points(o).Some? ==> r == Some(|Points(o).value|)
    ensures o.geometry.Some? ==> (Points(o).None? <==> r == Some(0))
  {
    match o.geometry
    case None => None
    case Some(h) => Some(HandlePointCount(h))
  }

  /** An ESRI JSON envelope, kept structured rather than as text. `wkid` is the authority code of the
      reference. */
  datatype EsriJson =
    | PointJson(x: Coord, y: Coord, wkid: int)
    | PathsJson(paths: Nested, wkid: int)
    | RingsJson(rings: Nested, wkid: int)

  /** `BaseGeometry.JSON` (used by lines): nothing without a handle; otherwise `paths` holds the engine's
      exported coordinates wrapped in exactly one more array. The authority code is read through the
      getter, so a handle with no reference raises AttributeError. */
  function Json(o: GeomObject): (r: Result<Option<EsriJson>, Error>)
    ensures o.geometry.None? ==> r == Ok(None)
    ensures o.geometry.Some? ==> (r.Ok? <==> SpatialReferenceOf(o).Some?)
    ensures r.Err? ==> r.error == AttributeError
    ensures r.Ok? && r.value.Some? ==>
      r.value.value.PathsJson? && r.value.value.wkid == SpatialReferenceOf(o).value.epsg &&
      r.value.value.paths == Array([ExportCoordinates(o.geometry.value)])
  {
    match o.geometry
    case None => Ok(None)
    case Some(h) =>
      match SpatialReferenceOf(o)
      case None => Err(AttributeError)
      case Some(s) => Ok(Some(PathsJson(Array([ExportCoordinates(h)]), s.epsg)))
  }

  /** For a line string with vertices, `paths` holds one path and that path is exactly `points`,
      position by position. */
  lemma JsonPathIsPoints(o: GeomObject)
    requires o.geometry.Some? && o.geometry.value.LineHandle? && o.geometry.value.srs.Some?
    requires |o.geometry.value.vertices| > 0
    ensures Json(o) == Ok(Some(PathsJson(Array([Array(Positions(Points(o).value))]), o.geometry.value.srs.value.epsg)))
  {
  }

  /** `to_shapely`: the conversion chosen by the object's `geometry_type`. */
  function ToShapelyOf(o: GeomObject): (r: Result<Option<Shape>, Error>)
    ensures o.geometryType == "polyline" && o.geometry.Some? && o.geometry.value.LineHandle? ==>
      r == Ok(Some(ShapelyLine(o.geometry.value.vertices)))
    ensures o.geometryType == "polygon" && o.geometry.Some? && o.geometry.value.PolygonHandle? &&
            |o.geometry.value.rings| > 0 ==>
      r == Ok(Some(ShapelyPolygon(o.geometry.value.rings[0])))
  {
    ToShapely(o.geometry, o.geometryType)
  }

  /** The shape every object built by the constructors keeps through every transformation: its tag is
      its class's, a point holds a point handle, and a polygon holds one closed ring. */
  predicate WellFormed(o: GeomObject) {
    && o.geometryType == ClassGeometryType(o.cls)
    && (o.cls == PointClass && o.geometry.Some? ==> o.geometry.value.PointHandle?)
    && (o.cls == PolygonClass && o.geometry.Some? ==>
          o.geometry.value.PolygonHandle? && |o.geometry.value.rings| == 1 && Closed(o.geometry.value.rings[0]))
  }
}

=== FILE: coordinate_transformation.dfy ===
/** `CoordinateTransformation`: resolves a transformation configuration once, at setup, and then
    applies one of four strategies to each geometry handed to `transform`. */
module CoordinateTransformation {
  import opened Wrappers
  import opened Engine
  import opened GeometryUtils
  import opened BaseGeometry
  import opened Reprojection

  const REPROJECT := "REPROJECT"
  const REPROJECT_WITH_TRANSFORM := "REPROJECT_WITH_TRANSFORM"
  const REPROJECT_WITH_INTERMEDIATE := "REPROJECT_WITH_INTERMEDIATE"
  const PROJ_STRING := "PROJ_STRING"

  /** The recognised options. The constructor's defaults are `transform_type = "REPROJECT"`,
      `transform_idx = 0` and no pipeline string. */
  datatype Config = Config(
    spatialReference: Option<EpsgInput>,
    intermediateReference: Option<EpsgInput>,
    transformType: string,
    transformIdx: int,
    projString: Option<string>)

  /** The attributes `__init__` leaves behind. A reference attribute that was never assigned is `None`. */
  datatype Dispatcher = Dispatcher(
    transformType: string,
    spatialReferenceEpsg: Option<EpsgInput>,
    intermediateReferenceEpsg: Option<EpsgInput>,
    projString: Option<string>,
    spatialReference: Option<SpatialReference>,
    intermediateReference: Option<SpatialReference>,
    transformer: TransformerSlot)

  /** `create_transformation`: looks up the ranked candidates between two configured codes and picks
      the one at `idx` with Python list indexing, so `idx` may count from the end. An empty list or an
      index outside `[-n, n)` is logged and gives no transformer; a failing lookup raises. */
  function CreateTransformation(p: Proj, fromEpsg: Option<EpsgInput>, toEpsg: Option<EpsgInput>, idx: int)
    : (r: Result<Option<Transformer>, Error>)
    ensures p.transformerGroup(fromEpsg, toEpsg).Err? ==> r == Err(p.transformerGroup(fromEpsg, toEpsg).error)
    ensures p.transformerGroup(fromEpsg, toEpsg).Ok? ==> r.Ok?
    ensures r.Ok? ==>
      var candidates := p.transformerGroup(fromEpsg, toEpsg).value;
      && (r.value.Some? <==> -|candidates| <= idx < |candidates|)
      && (r.value.Some? && idx >= 0 ==> r.value.value == candidates[idx])
      && (r.value.Some? && idx < 0 ==> r.value.value == candidates[|candidates| + idx])
  {
    var candidates :- p.transformerGroup(fromEpsg, toEpsg);
    if |candidates| == 0 then Ok(None)
    else if -|candidates| <= idx < |candidates| then
      Ok(Some(if idx < 0 then candidates[|candidates| + idx] else candidates[idx]))
    else Ok(None)
  }

  /** Index `k` and index `k - n` pick the same candidate, as Python's negative indexing promises. */
  lemma NegativeIndexAlias(p: Proj, fromEpsg: Option<EpsgInput>, toEpsg: Option<EpsgInput>, k: nat)
    requires p.transformerGroup(fromEpsg, toEpsg).Ok?
    requires k < |p.transformerGroup(fromEpsg, toEpsg).value|
    ensures CreateTransformation(p, fromEpsg, toEpsg, k) ==
            CreateTransformation(p, fromEpsg, toEpsg, k - |p.transformerGroup(fromEpsg, toEpsg).value|)
    ensures CreateTransformation(p, fromEpsg, toEpsg, k).Ok? && CreateTransformation(p, fromEpsg, toEpsg, k).value.Some?
  {
  }

  /** `create_transformation_from_proj_string` as written: a pipeline that does not compile sends the
      method to its error log, which it reads off the class (`cls.logger`), where no logger is defined,
      so the lookup raises AttributeError instead of logging. */
  function FromProjStringAsWritten(p: Proj, projString: string): (r: Result<Option<Transformer>, Error>)
    ensures p.fromPipeline(projString).Some? ==> r == Ok(p.fromPipeline(projString))
    ensures p.fromPipeline(projString).None? ==> r == Err(AttributeError)
  {
    match p.fromPipeline(projString)
    case None => Err(AttributeError)
    case Some(t) => Ok(Some(t))
  }

  /** `create_transformation_from_proj_string` as intended: a pipeline that does not compile is logged
      and gives no transformer, as the same method of `GeometryTransformer` does. */
  function FromProjString(p: Proj, projString: string): (r: Option<Transformer>)
    ensures r.Some? ==> FromProjStringAsWritten(p, projString) == Ok(r)
    ensures r.None? <==> FromProjStringAsWritten(p, projString).Err?
  {
    p.fromPipeline(projString)
  }

  /** The two differ exactly on a pipeline that does not compile: as written it raises at setup, as
      intended setup succeeds with no transformer. */
  lemma UncompiledPipelineRaisesAsWritten(p: Proj, cfg: Config)
    requires NonEmpty(cfg.projString) && p.fromPipeline(cfg.projString.value).None?
    requires Setup(p, cfg).Ok?
    ensures FromProjStringAsWritten(p, cfg.projString.value) == Err(AttributeError)
    ensures Setup(p, cfg).value.transformer == Assigned(None)
  {
  }

  /** The candidate lookup `__init__` performs: always from the intermediate code to the target code,
      whatever the transform type, so REPROJECT_WITH_TRANSFORM also looks up its transformer from the
      intermediate code. Without one the lookup is built from the text "epsg:None" (or "epsg:0",
      "epsg:"), which the library rejects; see `LookupRejectsAbsentCodes`. */
  function Candidate(p: Proj, cfg: Config): (r: Result<Option<Transformer>, Error>)
    ensures var group := p.transformerGroup(cfg.intermediateReference, cfg.spatialReference);
      && (group.Err? ==> r == Err(group.error))
      && (group.Ok? ==> r.Ok? && (r.value.Some? <==> -|group.value| <= cfg.transformIdx < |group.value|))
      && (r.Ok? && r.value.Some? ==>
            r.value.value == group.value[if cfg.transformIdx < 0 then |group.value| + cfg.transformIdx
                                         else cfg.transformIdx])
  {
    CreateTransformation(p, cfg.intermediateReference, cfg.spatialReference, cfg.transformIdx)
  }

  /** `CoordinateTransformation.__init__`, step by step: a truthy target code is resolved; the type
      REPROJECT_WITH_TRANSFORM looks up a transformer from the intermediate code to the target; a truthy
      intermediate code is resolved and the transformer is looked up again, whatever the type; a truthy
      pipeline string switches the type to PROJ_STRING and replaces any transformer with the compiled
      pipeline. An invalid code or a failing lookup raises. */
  function Setup(p: Proj, cfg: Config): (r: Result<Dispatcher, Error>)
    ensures r.Err? <==>
      || (EpsgTruthy(cfg.spatialReference) && SrsFromEpsg(cfg.spatialReference.value, p.reportsCorrupt).Err?)
      || (cfg.transformType == REPROJECT_WITH_TRANSFORM && Candidate(p, cfg).Err?)
      || (EpsgTruthy(cfg.intermediateReference) &&
          (SrsFromEpsg(cfg.intermediateReference.value, p.reportsCorrupt).Err? || Candidate(p, cfg).Err?))
    ensures r.Ok? ==> r.value.transformType == (if NonEmpty(cfg.projString) then PROJ_STRING else cfg.transformType)
    ensures r.Ok? ==> (r.value.spatialReference.Some? <==> EpsgTruthy(cfg.spatialReference))
    ensures r.Ok? && EpsgTruthy(cfg.spatialReference) ==>
      r.value.spatialReference == Some(SrsFromEpsg(cfg.spatialReference.value, p.reportsCorrupt).value)
    ensures r.Ok? ==> (r.value.intermediateReference.Some? <==> EpsgTruthy(cfg.intermediateReference))
    ensures r.Ok? && EpsgTruthy(cfg.intermediateReference) ==>
      r.value.intermediateReference == Some(SrsFromEpsg(cfg.intermediateReference.value, p.reportsCorrupt).value)
    ensures r.Ok? && NonEmpty(cfg.projString) ==>
      r.value.transformer == Assigned(p.fromPipeline(cfg.projString.value))
    ensures r.Ok? && !NonEmpty(cfg.projString) &&
            (cfg.transformType == REPROJECT_WITH_TRANSFORM || EpsgTruthy(cfg.intermediateReference)) ==>
      r.value.transformer == Assigned(Candidate(p, cfg).value)
    ensures r.Ok? && !NonEmpty(cfg.projString) &&
            cfg.transformType != REPROJECT_WITH_TRANSFORM && !EpsgTruthy(cfg.intermediateReference) ==>
      r.value.transformer == Unassigned
  {
    var initial := Dispatcher(cfg.transformType, cfg.spatialReference, cfg.intermediateReference,
                              cfg.projString, None, None, Unassigned);
    var withTarget :-
      if EpsgTruthy(cfg.spatialReference) then
        var s :- SrsFromEpsg(cfg.spatialReference.value, p.reportsCorrupt);
        Ok(initial.(spatialReference := Some(s)))
      else Ok(initial);
    var withTransform :-
      if cfg.transformType == REPROJECT_WITH_TRANSFORM then
        var t :- Candidate(p, cfg);
        Ok(withTarget.(transformer := Assigned(t)))
      else Ok(withTarget);
    var withIntermediate :-
      if EpsgTruthy(cfg.intermediateReference) then
        var s :- SrsFromEpsg(cfg.intermediateReference.value, p.reportsCorrupt);
        var t :- Candidate(p, cfg);
        Ok(withTransform.(intermediateReference := Some(s), transformer := Assigned(t)))
      else Ok(withTransform);
    if NonEmpty(cfg.projString) then
      Ok(withIntermediate.(transformType := PROJ_STRING,
                           transformer := Assigned(FromProjString(p, cfg.projString.value))))
    else Ok(withIntermediate)
  }

  /** `transform_geometry`: dispatches on the class (`isinstance`) to the point, line or polygon
      branch; an object of the base class is left as it is. */
  function TransformGeometry(o: GeomObject, t: Option<Transformer>, target: SpatialReference)
    : (r: Result<GeomObject, Error>)
    ensures o.cls == BaseClass ==> r == Ok(o)
    ensures o.cls == PointClass ==> r == RebuildPoint(o, t, target)
    ensures o.cls == LineClass ==> r == RebuildLine(o, t, target)
    ensures o.cls == PolygonClass ==> r == RebuildPolygon(o, t, target)
  {
    match o.cls
    case BaseClass => Ok(o)
    case PointClass => RebuildPoint(o, t, target)
    case LineClass => RebuildLine(o, t, target)
    case PolygonClass => RebuildPolygon(o, t, target)
  }

  /** Rebuilding keeps a geometry well formed and stamps the target on every class but the base one. */
  lemma TransformGeometryWellFormed(o: GeomObject, t: Option<Transformer>, target: SpatialReference)
    requires WellFormed(o)
    requires TransformGeometry(o, t, target).Ok?
    ensures WellFormed(TransformGeometry(o, t, target).value)
    ensures o.cls != BaseClass ==> SpatialReferenceOf(TransformGeometry(o, t, target).value) == Some(target)
  {
  }

  /** Rebuilding with a transformer and then with its inverse, back to the original reference, gives
      the original geometry back, for points, lines and polygons alike. */
  lemma {:induction false} TransformGeometryRoundTrip(o: GeomObject, f: Transformer, g: Transformer,
                                                     a: SpatialReference, b: SpatialReference)
    requires WellFormed(o) && o.cls != BaseClass
    requires o.geometry.Some? && o.geometry.value.srs == Some(a)
    requires o.cls == LineClass ==> o.geometry.value.LineHandle?
    requires forall v :: f(v).Ok? && g(f(v).value) == Ok(v)
    ensures TransformGeometry(o, Some(f), b).Ok?
    ensures TransformGeometry(TransformGeometry(o, Some(f), b).value, Some(g), a) == Ok(o)
  {
    var h := o.geometry.value;
    match o.cls
    case PointClass =>
      var w := f((h.x, h.y)).value;
      assert g(w) == Ok((h.x, h.y));
    case LineClass =>
      MapVerticesRoundTrip(f, g, h.vertices);
      var mid := TransformGeometry(o, Some(f), b).value;
      var ws := mid.geometry.value.vertices;
      assert MapVertices(f, h.vertices) == Ok(ws);
      assert MapVertices(g, ws) == Ok(h.vertices);
    case PolygonClass =>
      var ring := h.rings[0];
      MapVerticesRoundTrip(f, g, ring);
      RebuildPolygonOfClosedRing(o, f, b);
      var mid := TransformGeometry(o, Some(f), b).value;
      var ws := MapVertices(f, ring).value;
      assert mid.geometry == Some(PolygonHandle([ws], Some(b)));
      MapKeepsClosed(f, ring);
      RebuildPolygonOfClosedRing(mid, g, a);
      assert [ring] == h.rings;
  }

  /** `reproject_with_transform`: reads the `transformer` and `spatial_reference` attributes (a missing
      one raises AttributeError) and rebuilds the geometry. */
  function ReprojectWithTransform(d: Dispatcher, o: GeomObject): (r: Result<GeomObject, Error>)
    ensures d.transformer.Unassigned? || d.spatialReference.None? ==> r == Err(AttributeError)
    ensures d.transformer.Assigned? && d.spatialReference.Some? ==>
      r == TransformGeometry(o, d.transformer.transformer, d.spatialReference.value)
  {
    var attributes :- TransformerAttributes(d.transformer, d.spatialReference);
    TransformGeometry(o, attributes.0, attributes.1)
  }

  /** `transform`: REPROJECT reprojects straight to the target; REPROJECT_WITH_TRANSFORM and PROJ_STRING
      rebuild through the transformer; REPROJECT_WITH_INTERMEDIATE first reprojects to the intermediate
      reference in place and then rebuilds that result through the transformer; any other type leaves
      the geometry alone. A single-step strategy that raises leaves the geometry untouched; the two-step
      strategy, when its second step raises, leaves the geometry as the first step made it. */
  function Transform(p: Proj, d: Dispatcher, o: GeomObject): (a: Applied)
    ensures d.transformType == REPROJECT ==> a == Settle(Reproject(p, o, d.spatialReference), o)
    ensures d.transformType == REPROJECT_WITH_TRANSFORM || d.transformType == PROJ_STRING ==>
      a == Settle(ReprojectWithTransform(d, o), o)
    ensures d.transformType == REPROJECT_WITH_INTERMEDIATE ==>
      match Reproject(p, o, d.intermediateReference)
      case Err(e) => a == Applied(o, Some(e))
      case Ok(o1) => a == Settle(ReprojectWithTransform(d, o1), o1)
    ensures d.transformType !in {REPROJECT, REPROJECT_WITH_TRANSFORM, PROJ_STRING, REPROJECT_WITH_INTERMEDIATE} ==>
      a == Applied(o, None)
    ensures a.raised.Some? && d.transformType != REPROJECT_WITH_INTERMEDIATE ==> a.geometry == o
  {
    if d.transformType == REPROJECT then Settle(Reproject(p, o, d.spatialReference), o)
    else if d.transformType == REPROJECT_WITH_TRANSFORM || d.transformType == PROJ_STRING then
      Settle(ReprojectWithTransform(d, o), o)
    else if d.transformType == REPROJECT_WITH_INTERMEDIATE then
      match Reproject(p, o, d.intermediateReference)
      case Err(e) => Applied(o, Some(e))
      case Ok(o1) => Settle(ReprojectWithTransform(d, o1), o1)
    else Applied(o, None)
  }

  /** Every strategy keeps a geometry well formed, whether or not the call raises. */
  lemma TransformWellFormed(p: Proj, d: Dispatcher, o: GeomObject)
    requires WellFormed(o)
    ensures WellFormed(Transform(p, d, o).geometry)
  {
    var a := Transform(p, d, o);
    if d.transformType == REPROJECT {
      if Reproject(p, o, d.spatialReference).Ok? {
        ReprojectWellFormed(p, o, d.spatialReference);
      }
    } else if d.transformType == REPROJECT_WITH_TRANSFORM || d.transformType == PROJ_STRING {
      if ReprojectWithTransform(d, o).Ok? {
        TransformGeometryWellFormed(o, d.transformer.transformer, d.spatialReference.value);
      }
    } else if d.transformType == REPROJECT_WITH_INTERMEDIATE {
      if Reproject(p, o, d.intermediateReference).Ok? {
        var o1 := Reproject(p, o, d.intermediateReference).value;
        ReprojectWellFormed(p, o, d.intermediateReference);
        if ReprojectWithTransform(d, o1).Ok? {
          TransformGeometryWellFormed(o1, d.transformer.transformer, d.spatialReference.value);
        }
      }
    }
  }

  /** The library's verdict on a lookup between codes of which one is absent or falsy: the text it is
      given ("epsg:None", "epsg:0", "epsg:") names no reference, so the lookup raises. */
  ghost predicate LookupRejectsAbsentCodes(p: Proj) {
    forall a: Option<EpsgInput>, b: Option<EpsgInput> ::
      !EpsgTruthy(a) || !EpsgTruthy(b) ==> p.transformerGroup(a, b).Err?
  }

  /** REPROJECT_WITH_TRANSFORM needs an intermediate code: without one its lookup runs from an absent
      code, and setup raises whatever the index. */
  lemma TransformWithoutIntermediateFailsAtSetup(p: Proj, cfg: Config)
    requires LookupRejectsAbsentCodes(p)
    requires cfg.transformType == REPROJECT_WITH_TRANSFORM && !EpsgTruthy(cfg.intermediateReference)
    ensures Setup(p, cfg).Err?
    ensures Setup(p, cfg).error == p.transformerGroup(cfg.intermediateReference, cfg.spatialReference).error ||
            Setup(p, cfg).error == ValueError
  {
  }

  /** An index outside the candidate list is not a setup error: setup succeeds with no transformer,
      and the failure only surfaces when a geometry is transformed, leaving that geometry untouched. */
  lemma OutOfRangeIndexFailsAtTransform(p: Proj, cfg: Config, o: GeomObject)
    requires cfg.transformType == REPROJECT_WITH_TRANSFORM
    requires EpsgTruthy(cfg.intermediateReference) && !NonEmpty(cfg.projString)
    requires SrsFromEpsg(cfg.intermediateReference.value, p.reportsCorrupt).Ok?
    requires EpsgTruthy(cfg.spatialReference) && SrsFromEpsg(cfg.spatialReference.value, p.reportsCorrupt).Ok?
    requires p.transformerGroup(cfg.intermediateReference, cfg.spatialReference).Ok?
    requires var n := |p.transformerGroup(cfg.intermediateReference, cfg.spatialReference).value|;
             cfg.transformIdx >= n || cfg.transformIdx < -n
    requires o.cls == PointClass
    ensures Setup(p, cfg).Ok?
    ensures Setup(p, cfg).value.transformer == Assigned(None)
    ensures Transform(p, Setup(p, cfg).value, o) == Applied(o, Some(AttributeError))
  {
  }

  /** As intended, a pipeline that does not compile is no setup error; it surfaces as AttributeError at
      the first transform of a point, line or polygon, which leaves the geometry untouched. */
  lemma UncompiledPipelineFailsAtTransform(p: Proj, cfg: Config, o: GeomObject)
    requires NonEmpty(cfg.projString) && p.fromPipeline(cfg.projString.value).None?
    requires Setup(p, cfg).Ok? && o.cls != BaseClass
    ensures Transform(p, Setup(p, cfg).value, o) == Applied(o, Some(AttributeError))
  {
  }

  /** The two-step strategy is not all-or-nothing: when the rebuild raises after the intermediate
      reprojection succeeded, the geometry is left reprojected to the intermediate reference. */
  lemma IntermediateFailureKeepsFirstStep(p: Proj, d: Dispatcher, o: GeomObject)
    requires d.transformType == REPROJECT_WITH_INTERMEDIATE
    requires Reproject(p, o, d.intermediateReference).Ok?
    requires ReprojectWithTransform(d, Reproject(p, o, d.intermediateReference).value).Err?
    ensures Transform(p, d, o).raised.Some?
    ensures Transform(p, d, o).geometry == Reproject(p, o, d.intermediateReference).value
    ensures SpatialReferenceOf(Transform(p, d, o).geometry) == d.intermediateReference
  {
  }

  /** When the two-step strategy raises nothing on a line string, its vertices are those of one rewrite:
      each vertex is projected to the intermediate reference and then sent through the transformer. */
  lemma IntermediateLineComposes(p: Proj, d: Dispatcher, o: GeomObject, g: Transformer)
    requires d.transformType == REPROJECT_WITH_INTERMEDIATE
    requires WellFormed(o) && o.cls == LineClass
    requires o.geometry.Some? && o.geometry.value.LineHandle? && o.geometry.value.srs.Some?
    requires d.intermediateReference.Some? && d.spatialReference.Some? && d.transformer == Assigned(Some(g))
    requires Transform(p, d, o).raised.None?
    ensures var first := Projector(p.project, o.geometry.value.srs.value, d.intermediateReference.value);
      && MapVertices(Then(first, g), o.geometry.value.vertices).Ok?
      && Transform(p, d, o).geometry ==
         o.(geometry := Some(LineHandle(MapVertices(Then(first, g), o.geometry.value.vertices).value,
                                        d.spatialReference)))
  {
    var vs := o.geometry.value.vertices;
    var f := Projector(p.project, o.geometry.value.srs.value, d.intermediateReference.value);
    var o1 := Reproject(p, o, d.intermediateReference).value;
    var us := MapVertices(f, vs).value;
    assert o1 == o.(geometry := Some(LineHandle(us, d.intermediateReference)));
    var o2 := RebuildLine(o1, Some(g), d.spatialReference.value).value;
    assert Transform(p, d, o).geometry == o2;
    var ws := o2.geometry.value.vertices;
    assert MapVertices(g, us) == Ok(ws) by {
      assert forall i :: 0 <= i < |us| ==> g(us[i]) == Ok(ws[i]);
      assert MapVertices(g, us).value == ws;
    }
    MapVerticesCompose(f, g, vs);
  }
}

=== FILE: engine.dfy ===
/** The coordinate engine (GDAL/OGR) as seen by the geometry classes: an engine geometry handle,
    the accessors the classes call on it, ring closing, and vertex-wise rewriting.
    Projection mathematics stays abstract: a reprojection is a per-vertex function supplied by
    the caller. */
module Engine {
  import opened Wrappers

  /** A coordinate value. Coordinates are only moved, compared and re-packed, never computed with. */
  type Coord = real

  /** A 2D vertex (x, y); x is the longitude or easting under traditional GIS axis order. */
  type Vertex = (Coord, Coord)

  /** How a spatial reference maps its axes onto (x, y). */
  datatype AxisOrder = AuthorityCompliant | TraditionalGis

  /** An `osr.SpatialReference` imported from an EPSG code. */
  datatype SpatialReference = SpatialReference(epsg: int, axisOrder: AxisOrder)

  /** The exceptions the modelled code can raise. */
  datatype Error =
    | ValueError      // ambiguous point input, `int()` coercion failure, invalid EPSG code
    | TypeError       // indexing a list or a string by a key, wrong number of arguments to AddPoint_2D
    | IndexError      // a coordinate entry with too few components
    | AttributeError  // an attribute read on `None`, or on an object that lacks it
    | EngineError     // an error raised inside GDAL/OGR, pyproj or shapely

  /** A coordinate transformation applied to one (x, y) pair, such as `pyproj.Transformer.transform`. */
  type Transformer = Vertex -> Result<Vertex, Error>

  /** An `ogr.Geometry` handle: a point, a line string, or a polygon made of rings.
      Every variant carries the spatial reference assigned to it, if any. */
  datatype Handle =
    | PointHandle(x: Coord, y: Coord, srs: Option<SpatialReference>)
    | LineHandle(vertices: seq<Vertex>, srs: Option<SpatialReference>)
    | PolygonHandle(rings: seq<seq<Vertex>>, srs: Option<SpatialReference>)

  /** The `coordinates` member of the engine's GeoJSON export: a position or a nested array. */
  datatype Nested = Position(x: Coord, y: Coord) | Array(items: seq<Nested>)

  /** `AssignSpatialReference`: stamps a reference (or none) and leaves the coordinates alone. */
  function Stamp(h: Handle, srs: Option<SpatialReference>): (r: Handle)
    ensures r.srs == srs
    ensures ExportCoordinates(r) == ExportCoordinates(h)
    ensures r.PointHandle? == h.PointHandle? && r.LineHandle? == h.LineHandle?
  {
    h.(srs := srs)
  }

  /** `GetPoints()`: the vertex list of a point or a line string. The engine gives `None` whenever the
      point count is 0 — for a polygon, and for a line string without vertices — so a list it gives is
      never empty. */
  function HandlePoints(h: Handle): (r: Option<seq<Vertex>>)
    ensures r.None? <==> h.PolygonHandle? || (h.LineHandle? && |h.vertices| == 0)
    ensures r.Some? ==> |r.value| > 0
    ensures h.PointHandle? ==> r == Some([(h.x, h.y)])
    ensures h.LineHandle? && |h.vertices| > 0 ==> r == Some(h.vertices)
  {
    match h
    case PointHandle(x, y, _) => Some([(x, y)])
    case LineHandle(vs, _) => if |vs| == 0 then None else Some(vs)
    case PolygonHandle(_, _) => None
  }

  /** `GetPointCount()`: the engine counts vertices of points and line strings only and reports 0 for
      any other geometry type, polygons included. */
  function HandlePointCount(h: Handle): (r: nat)
    ensures h.PolygonHandle? ==> r == 0
    ensures h.LineHandle? ==> r == |h.vertices|
    ensures HandlePoints(h).Some? ==> r == |HandlePoints(h).value|
    ensures HandlePoints(h).None? <==> r == 0
  {
    match h
    case PointHandle(_, _, _) => 1
    case LineHandle(vs, _) => |vs|
    case PolygonHandle(_, _) => 0
  }

  /** `GetGeometryName()`: the upper-case name of the handle's geometry type. */
  function GeometryName(h: Handle): (r: string)
    ensures r == "POINT" <==> h.PointHandle?
    ensures r == "LINESTRING" <==> h.LineHandle?
    ensures r == "POLYGON" <==> h.PolygonHandle?
  {
    match h
    case PointHandle(_, _, _) => "POINT"
    case LineHandle(_, _) => "LINESTRING"
    case PolygonHandle(_, _) => "POLYGON"
  }

  /** `GetGeometryCount()`: the number of rings of a polygon, 0 for a point or a line string. */
  function GeometryCount(h: Handle): (r: nat)
    ensures h.PolygonHandle? ==> r == |h.rings|
    ensures !h.PolygonHandle? ==> r == 0
    ensures r > 0 ==> h.PolygonHandle?
  {
    match h
    case PolygonHandle(rs, _) => |rs|
    case _ => 0
  }

  /** `GetX()` and `GetY()` (vertex 0): a point's coordinates, a line string's first vertex; the engine
      raises for an empty line string and for a polygon. */
  function ReadXY(h: Handle): (r: Result<Vertex, Error>)
    ensures h.PointHandle? ==> r == Ok((h.x, h.y))
    ensures h.LineHandle? ==> (r.Ok? <==> |h.vertices| > 0)
    ensures h.LineHandle? && r.Ok? ==> r.value == h.vertices[0]
    ensures h.PolygonHandle? ==> r == Err(EngineError)
  {
    match h
    case PointHandle(x, y, _) => Ok((x, y))
    case LineHandle(vs, _) => if |vs| > 0 then Ok(vs[0]) else Err(EngineError)
    case PolygonHandle(_, _) => Err(EngineError)
  }

  /** `GetGeometryRef(0).GetPoints()`: the vertex list of a polygon's first ring. With exceptions
      enabled, the engine raises when asked for a sub-geometry of a point or a line string; a polygon
      without rings gives `None`, whose `GetPoints` raises AttributeError; and, as for `GetPoints` on any
      geometry, a ring without vertices gives `None`. */
  function RingPoints(h: Handle): (r: Result<Option<seq<Vertex>>, Error>)
    ensures !h.PolygonHandle? ==> r == Err(EngineError)
    ensures h.PolygonHandle? ==> (r.Ok? <==> |h.rings| > 0)
    ensures h.PolygonHandle? && r.Err? ==> r.error == AttributeError
    ensures r.Ok? ==> (r.value.None? <==> |h.rings[0]| == 0)
    ensures r.Ok? && r.value.Some? ==> r.value.value == h.rings[0]
  {
    match h
    case PolygonHandle(rs, _) =>
      if |rs| == 0 then Err(AttributeError)
      else if |rs[0]| == 0 then Ok(None)
      else Ok(Some(rs[0]))
    case _ => Err(EngineError)
  }

  /** The positions of a vertex list, in order. */
  function Positions(vs: seq<Vertex>): (r: seq<Nested>)
    ensures |r| == |vs|
    ensures forall i :: 0 <= i < |vs| ==> r[i] == Position(vs[i].0, vs[i].1)
  {
    seq(|vs|, i requires 0 <= i < |vs| => Position(vs[i].0, vs[i].1))
  }

  /** The `coordinates` member of `ExportToJson()`: a position for a point, an array of positions for a
      line string, an array of rings of positions for a polygon. */
  function ExportCoordinates(h: Handle): (r: Nested)
    ensures h.PointHandle? <==> r.Position?
    ensures h.PointHandle? ==> r == Position(h.x, h.y)
    ensures h.LineHandle? ==> r == Array(Positions(h.vertices))
    ensures h.PolygonHandle? ==> r.Array? && |r.items| == |h.rings|
    ensures h.PolygonHandle? ==> forall i :: 0 <= i < |h.rings| ==> r.items[i] == Array(Positions(h.rings[i]))
  {
    match h
    case PointHandle(x, y, _) => Position(x, y)
    case LineHandle(vs, _) => Array(Positions(vs))
    case PolygonHandle(rs, _) => Array(seq(|rs|, i requires 0 <= i < |rs| => Array(Positions(rs[i]))))
  }

  /** A ring is closed when its first and last vertices coincide (an empty ring counts as closed). */
  predicate Closed(vs: seq<Vertex>) {
    |vs| > 0 ==> vs[0] == vs[|vs| - 1]
  }

  /** `CloseRings()` on one ring: appends the first vertex when a ring of two or more vertices does not
      end where it starts. */
  function CloseRing(vs: seq<Vertex>): (r: seq<Vertex>)
    ensures Closed(r)
    ensures |vs| <= |r| <= |vs| + 1
    ensures r[..|vs|] == vs
    ensures |r| == |vs| + 1 ==> |vs| >= 2 && r[|vs|] == vs[0]
    ensures Closed(vs) ==> r == vs
  {
    if |vs| >= 2 && vs[0] != vs[|vs| - 1] then vs + [vs[0]] else vs
  }

  /** Applies `f` to every vertex, in order; the first failure is raised and nothing is returned. */
  function MapVertices(f: Transformer, vs: seq<Vertex>): (r: Result<seq<Vertex>, Error>)
    ensures r.Ok? <==> forall i :: 0 <= i < |vs| ==> f(vs[i]).Ok?
    ensures r.Ok? ==> |r.value| == |vs| && forall i :: 0 <= i < |vs| ==> f(vs[i]) == Ok(r.value[i])
    ensures r.Err? ==> exists i :: 0 <= i < |vs| && f(vs[i]) == Err(r.error) &&
                                  forall j :: 0 <= j < i ==> f(vs[j]).Ok?
  {
    if |vs| == 0 then Ok([])
    else
      match f(vs[0])
      case Err(e) => Err(e)
      case Ok(w) =>
        match MapVertices(f, vs[1..])
        case Err(e) =>
          assert forall j :: 1 <= j < |vs| ==> vs[j] == vs[1..][j - 1];
          Err(e)
        case Ok(ws) =>
          assert forall j :: 1 <= j < |vs| ==> vs[j] == vs[1..][j - 1];
          Ok([w] + ws)
  }

  /** Applies `f` to every vertex of every ring, ring by ring. */
  function MapRings(f: Transformer, rs: seq<seq<Vertex>>): (r: Result<seq<seq<Vertex>>, Error>)
    ensures r.Ok? <==> forall i :: 0 <= i < |rs| ==> MapVertices(f, rs[i]).Ok?
    ensures r.Ok? ==> |r.value| == |rs| && forall i :: 0 <= i < |rs| ==> MapVertices(f, rs[i]) == Ok(r.value[i])
  {
    if |rs| == 0 then Ok([])
    else
      match MapVertices(f, rs[0])
      case Err(e) => Err(e)
      case Ok(w) =>
        match MapRings(f, rs[1..])
        case Err(e) =>
          assert forall j :: 1 <= j < |rs| ==> rs[j] == rs[1..][j - 1];
          Err(e)
        case Ok(ws) =>
          assert forall j :: 1 <= j < |rs| ==> rs[j] == rs[1..][j - 1];
          Ok([w] + ws)
  }

  /** The per-vertex rewrite `TransformTo` applies: `project` from `src` to `target`. */
  function Projector(project: (SpatialReference, SpatialReference, Vertex) -> Result<Vertex, Error>,
                     src: SpatialReference, target: SpatialReference): (f: Transformer)
    ensures forall v :: f(v) == project(src, target, v)
  {
    v => project(src, target, v)
  }

  /** `f` followed by `g`: a failure of `f` is the failure of the whole. */
  function Then(f: Transformer, g: Transformer): (h: Transformer)
    ensures forall v :: f(v).Err? ==> h(v) == f(v)
    ensures forall v :: f(v).Ok? ==> h(v) == g(f(v).value)
  {
    v => match f(v) case Ok(w) => g(w) case Err(e) => Err(e)
  }

  /** `TransformTo(target)`: the engine reprojects every vertex from the handle's own reference to
      `target` with `project` and stamps `target`. A handle with no reference cannot be reprojected. */
  function TransformTo(project: (SpatialReference, SpatialReference, Vertex) -> Result<Vertex, Error>,
                       h: Handle, target: SpatialReference): (r: Result<Handle, Error>)
    ensures h.srs.None? ==> r == Err(EngineError)
    ensures r.Ok? ==> r.value.srs == Some(target)
    ensures r.Ok? ==> r.value.PointHandle? == h.PointHandle? && r.value.LineHandle? == h.LineHandle?
    ensures r.Ok? && h.LineHandle? ==> |r.value.vertices| == |h.vertices|
    ensures r.Ok? && h.PolygonHandle? ==> |r.value.rings| == |h.rings|
    ensures r.Ok? && h.PolygonHandle? ==>
      forall i :: 0 <= i < |h.rings| ==> |r.value.rings[i]| == |h.rings[i]|
    ensures h.srs.Some? && h.PointHandle? ==>
      var w := project(h.srs.value, target, (h.x, h.y));
      && (r.Ok? <==> w.Ok?)
      && (r.Ok? ==> r.value == PointHandle(w.value.0, w.value.1, Some(target)))
      && (r.Err? ==> r.error == w.error)
    ensures h.srs.Some? && h.LineHandle? ==>
      var m := MapVertices(Projector(project, h.srs.value, target), h.vertices);
      && (r.Ok? <==> m.Ok?)
      && (r.Ok? ==> r.value == LineHandle(m.value, Some(target)))
      && (r.Err? ==> r.error == m.error)
    ensures h.srs.Some? && h.PolygonHandle? ==>
      var m := MapRings(Projector(project, h.srs.value, target), h.rings);
      && (r.Ok? <==> m.Ok?)
      && (r.Ok? ==> r.value == PolygonHandle(m.value, Some(target)))
      && (r.Err? ==> r.error == m.error)
  {
    match h.srs
    case None => Err(EngineError)
    case Some(src) =>
      var f := Projector(project, src, target);
      match h
      case PointHandle(x, y, _) =>
        var w :- f((x, y));
        Ok(PointHandle(w.0, w.1, Some(target)))
      case LineHandle(vs, _) =>
        var ws :- MapVertices(f, vs);
        Ok(LineHandle(ws, Some(target)))
      case PolygonHandle(rs, _) =>
        var ws :- MapRings(f, rs);
        Ok(PolygonHandle(ws, Some(target)))
  }

  /** Mapping a closed ring vertex by vertex gives a closed ring: its first and last vertex are the
      same input, sent through the same function. */
  lemma MapKeepsClosed(f: Transformer, vs: seq<Vertex>)
    requires Closed(vs)
    requires MapVertices(f, vs).Ok?
    ensures Closed(MapVertices(f, vs).value)
  {
    var ws := MapVertices(f, vs).value;
    if |vs| > 0 {
      assert f(vs[0]) == Ok(ws[0]);
      assert f(vs[|vs| - 1]) == Ok(ws[|vs| - 1]);
    }
  }

  /** Rewriting vertices with `f` and then with `g` is one rewrite with `g` after `f`. */
  lemma {:induction false} MapVerticesCompose(f: Transformer, g: Transformer, vs: seq<Vertex>)
    requires MapVertices(f, vs).Ok?
    ensures MapVertices(g, MapVertices(f, vs).value) == MapVertices(Then(f, g), vs)
  {
    var h := Then(f, g);
    if |vs| > 0 {
      var w := f(vs[0]).value;
      MapVerticesCompose(f, g, vs[1..]);
      assert MapVertices(f, vs).value == [w] + MapVertices(f, vs[1..]).value;
      assert h(vs[0]) == g(w);
    }
  }

  /** A rewrite followed by one that undoes it on every vertex gives back the original vertices. */
  lemma MapVerticesRoundTrip(f: Transformer, g: Transformer, vs: seq<Vertex>)
    requires forall i :: 0 <= i < |vs| ==> f(vs[i]).Ok? && g(f(vs[i]).value) == Ok(vs[i])
    ensures MapVertices(f, vs).Ok?
    ensures MapVertices(g, MapVertices(f, vs).value) == Ok(vs)
  {
    var ws := MapVertices(f, vs).value;
    var back := MapVertices(g, ws);
    assert forall i :: 0 <= i < |ws| ==> g(ws[i]) == Ok(vs[i]) by {
      forall i | 0 <= i < |ws| ensures g(ws[i]) == Ok(vs[i]) {
        assert f(vs[i]) == Ok(ws[i]);
      }
    }
    assert back.Ok?;
    assert back.value == vs by {
      forall i | 0 <= i < |vs| ensures back.value[i] == vs[i] {
        assert g(ws[i]) == Ok(back.value[i]);
      }
    }
  }
}

=== FILE: geometry_transformer.dfy ===
/** `GeometryTransformer`: the simpler dispatcher, with two strategies — plain reprojection, or a
    compiled PROJ pipeline — that chooses the rebuilding branch by the `geometry_type` tag rather than
    by class. Its local `get_polygon` and `srs_from_epsg` are the utilities' own (`GetPolygon`,
    `SrsFromEpsg`). */
module GeometryTransformer {
  import opened Wrappers
  import opened Engine
  import opened GeometryUtils
  import opened BaseGeometry
  import opened Reprojection
  import CoordinateTransformation

  const PROJ := "PROJ"
  const SIMPLE := "SIMPLE"

  /** The attributes `__init__` leaves behind; `transformer` is assigned only with a pipeline string. */
  datatype Dispatcher = Dispatcher(
    spatialReferenceEpsg: Option<EpsgInput>,
    projString: Option<string>,
    transformType: string,
    spatialReference: Option<SpatialReference>,
    transformer: TransformerSlot)

  /** `GeometryTransformer.__init__`: the type is SIMPLE unless a truthy pipeline string is given, which
      makes it PROJ and stores the compiled pipeline — `None` when it does not compile, since this
      class only reports the failure. Only an invalid target code raises. */
  function Setup(p: Proj, spatialReferenceEpsg: Option<EpsgInput>, projString: Option<string>)
    : (r: Result<Dispatcher, Error>)
    ensures r.Err? <==> EpsgTruthy(spatialReferenceEpsg) && SrsFromEpsg(spatialReferenceEpsg.value, p.reportsCorrupt).Err?
    ensures r.Err? ==> r.error == ValueError
    ensures r.Ok? ==> r.value.transformType == (if NonEmpty(projString) then PROJ else SIMPLE)
    ensures r.Ok? ==> (r.value.spatialReference.Some? <==> EpsgTruthy(spatialReferenceEpsg))
    ensures r.Ok? && EpsgTruthy(spatialReferenceEpsg) ==>
      r.value.spatialReference == Some(SrsFromEpsg(spatialReferenceEpsg.value, p.reportsCorrupt).value)
    ensures r.Ok? ==> (r.value.transformer.Assigned? <==> NonEmpty(projString))
    ensures r.Ok? && NonEmpty(projString) ==> r.value.transformer == Assigned(p.fromPipeline(projString.value))
  {
    var initial := Dispatcher(spatialReferenceEpsg, projString, SIMPLE, None, Unassigned);
    var withTarget :-
      if EpsgTruthy(spatialReferenceEpsg) then
        var s :- SrsFromEpsg(spatialReferenceEpsg.value, p.reportsCorrupt);
        Ok(initial.(spatialReference := Some(s)))
      else Ok(initial);
    if NonEmpty(projString) then
      Ok(withTarget.(transformType := PROJ, transformer := Assigned(p.fromPipeline(projString.value))))
    else Ok(withTarget)
  }

  /** `transform_geometry` of this class: dispatches on the `geometry_type` tag; any other tag leaves
      the geometry alone. */
  function TransformGeometry(o: GeomObject, t: Option<Transformer>, target: SpatialReference)
    : (r: Result<GeomObject, Error>)
    ensures o.geometryType == "point" ==> r == RebuildPoint(o, t, target)
    ensures o.geometryType == "polyline" ==> r == RebuildLine(o, t, target)
    ensures o.geometryType == "polygon" ==> r == RebuildPolygon(o, t, target)
    ensures o.geometryType !in {"point", "polyline", "polygon"} ==> r == Ok(o)
  {
    if o.geometryType == "point" then RebuildPoint(o, t, target)
    else if o.geometryType == "polyline" then RebuildLine(o, t, target)
    else if o.geometryType == "polygon" then RebuildPolygon(o, t, target)
    else Ok(o)
  }

  /** On points, lines and polygons the tag dispatch and the class dispatch of `CoordinateTransformation`
      agree, because each of those classes carries its own tag. */
  lemma DispatchAgrees(o: GeomObject, t: Option<Transformer>, target: SpatialReference)
    requires WellFormed(o) && o.cls != BaseClass
    ensures TransformGeometry(o, t, target) == CoordinateTransformation.TransformGeometry(o, t, target)
  {
  }

  /** A bare base geometry carries the class tag "point" but has no `X`: the tag dispatch sends it to the
      point branch, which raises AttributeError, where the class dispatch leaves it unchanged. */
  lemma BaseGeometryDispatchDiffers(o: GeomObject, t: Option<Transformer>, target: SpatialReference)
    requires WellFormed(o) && o.cls == BaseClass
    ensures TransformGeometry(o, t, target) == Err(AttributeError)
    ensures CoordinateTransformation.TransformGeometry(o, t, target) == Ok(o)
  {
  }

  /** `reproject_with_transform`: reads the `transformer` and `spatial_reference` attributes (a missing
      one raises AttributeError) and rebuilds the geometry by its tag. */
  function ReprojectWithTransform(d: Dispatcher, o: GeomObject): (r: Result<GeomObject, Error>)
    ensures d.transformer.Unassigned? || d.spatialReference.None? ==> r == Err(AttributeError)
    ensures d.transformer.Assigned? && d.spatialReference.Some? ==>
      r == TransformGeometry(o, d.transformer.transformer, d.spatialReference.value)
  {
    match TransformerAttributes(d.transformer, d.spatialReference)
    case Err(e) => Err(e)
    case Ok((t, target)) => TransformGeometry(o, t, target)
  }

  /** `transform`: SIMPLE reprojects straight to the target, PROJ rebuilds through the pipeline; any
      other type leaves the geometry alone. Both strategies are single steps, so a call that raises
      leaves the geometry untouched. */
  function Transform(p: Proj, d: Dispatcher, o: GeomObject): (a: Applied)
    ensures d.transformType == SIMPLE ==> a == Settle(Reproject(p, o, d.spatialReference), o)
    ensures d.transformType == PROJ ==> a == Settle(ReprojectWithTransform(d, o), o)
    ensures d.transformType !in {SIMPLE, PROJ} ==> a == Applied(o, None)
    ensures a.raised.Some? ==> a.geometry == o
  {
    if d.transformType == SIMPLE then Settle(Reproject(p, o, d.spatialReference), o)
    else if d.transformType == PROJ then Settle(ReprojectWithTransform(d, o), o)
    else Applied(o, None)
  }

  /** A pipeline string that does not compile is no setup error here; it surfaces as AttributeError at
      the first transform, which leaves the geometry untouched. */
  lemma UncompiledPipelineFailsAtTransform(p: Proj, srsEpsg: Option<EpsgInput>, projString: string, o: GeomObject)
    requires |projString| > 0 && p.fromPipeline(projString).None?
    requires Setup(p, srsEpsg, Some(projString)).Ok? && WellFormed(o)
    ensures Transform(p, Setup(p, srsEpsg, Some(projString)).value, o) == Applied(o, Some(AttributeError))
  {
  }

  /** With the same target and a pipeline, both dispatchers leave a point, line or polygon in the same
      state and raise the same exception. */
  lemma AgreesWithCoordinateTransformation(p: Proj, d: Dispatcher, c: CoordinateTransformation.Dispatcher,
                                           o: GeomObject)
    requires WellFormed(o) && o.cls != BaseClass
    requires d.transformType == PROJ && c.transformType == CoordinateTransformation.PROJ_STRING
    requires d.transformer == c.transformer && d.spatialReference == c.spatialReference
    ensures Transform(p, d, o) == CoordinateTransformation.Transform(p, c, o)
  {
    if d.transformer.Assigned? && d.spatialReference.Some? {
      DispatchAgrees(o, d.transformer.transformer, d.spatialReference.value);
    }
  }

  /** Every strategy keeps a geometry well formed, whether or not the call raises. */
  lemma TransformWellFormed(p: Proj, d: Dispatcher, o: GeomObject)
    requires WellFormed(o)
    ensures WellFormed(Transform(p, d, o).geometry)
  {
    if d.transformType == SIMPLE {
      if Reproject(p, o, d.spatialReference).Ok? {
        ReprojectWellFormed(p, o, d.spatialReference);
      }
    } else if d.transformType == PROJ {
      if ReprojectWithTransform(d, o).Ok? {
        var t := d.transformer.transformer;
        var target := d.spatialReference.value;
        if o.cls == BaseClass {
          BaseGeometryDispatchDiffers(o, t, target);
        } else {
          DispatchAgrees(o, t, target);
          CoordinateTransformation.TransformGeometryWellFormed(o, t, target);
        }
      }
    }
  }
}

=== FILE: geometry_utils.dfy ===
/** The helper functions the geometry classes and the transformers build on: parsing of the upstream
    longitude/latitude JSON, spatial reference resolution from an EPSG code, and construction of
    engine points, line strings and single-ring polygons. */
module GeometryUtils {
  import opened Wrappers
  import opened Engine

  /** One record of the upstream API: a dict carrying `longitude` and `latitude`. */
  datatype LonLat = LonLat(longitude: Coord, latitude: Coord)

  /** The `geom_json` argument: one dict (an API point) or a list of dicts (an API line). */
  datatype GeomJson = ApiPoint(point: LonLat) | ApiLine(points: seq<LonLat>)

  /** Python truthiness of an optional `geom_json`: a dict holding its two keys is never empty, a list
      is truthy when it has an element. */
  predicate JsonTruthy(g: Option<GeomJson>) {
    g.Some? && (g.value.ApiPoint? || |g.value.points| > 0)
  }

  /** One coordinate entry, `[x, y]` or longer; a list of numbers. */
  type CoordEntry = seq<Coord>

  /** A `coordinates` argument: a list of coordinate entries. */
  type CoordList = seq<CoordEntry>

  /** An EPSG code as configured: an `int`, or text to be coerced with `int()`. */
  datatype EpsgInput = IntCode(code: int) | TextCode(text: string)

  /** Python truthiness of an optional EPSG setting: `0`, `""` and `None` are false. */
  predicate EpsgTruthy(e: Option<EpsgInput>) {
    match e
    case None => false
    case Some(IntCode(n)) => n != 0
    case Some(TextCode(s)) => |s| > 0
  }

  // ---------------------------------------------------------------------------------------------
  // get_coordinates

  /** The `[longitude, latitude]` pairs of a list of API records, appended one per record. */
  function LonLatPairs(ps: seq<LonLat>): (r: CoordList)
    ensures |r| == |ps|
    ensures forall i :: 0 <= i < |ps| ==> r[i] == [ps[i].longitude, ps[i].latitude]
  {
    if |ps| == 0 then []
    else LonLatPairs(ps[..|ps| - 1]) + [[ps[|ps| - 1].longitude, ps[|ps| - 1].latitude]]
  }

  /** `get_coordinates`: nothing for `None`; otherwise one `[longitude, latitude]` entry per API
      record, in input order, a single dict giving a one-entry list. */
  function GetCoordinates(g: Option<GeomJson>): (r: Option<CoordList>)
    ensures g.None? <==> r.None?
    ensures g.Some? && g.value.ApiLine? ==> r == Some(LonLatPairs(g.value.points))
    ensures g.Some? && g.value.ApiPoint? ==> r == Some([[g.value.point.longitude, g.value.point.latitude]])
  {
    match g
    case None => None
    case Some(ApiLine(ps)) => Some(LonLatPairs(ps))
    case Some(ApiPoint(p)) => Some([[p.longitude, p.latitude]])
  }

  // ---------------------------------------------------------------------------------------------
  // srs_from_epsg

  predicate IsDigit(c: char) {
    '0' <= c <= '9'
  }

  predicate AllDigits(s: string) {
    forall i :: 0 <= i < |s| ==> IsDigit(s[i])
  }

  function DigitValue(c: char): nat
    requires IsDigit(c)
  {
    c as int - '0' as int
  }

  function DigitChar(d: nat): (c: char)
    requires d < 10
    ensures IsDigit(c) && DigitValue(c) == d
  {
    ('0' as int + d) as char
  }

  /** `int()` on text, restricted to plain decimal digits: a non-empty digit string gives its value,
      anything else is rejected. */
  function ParseDecimal(s: string): (r: Option<nat>)
    ensures r.Some? <==> |s| > 0 && AllDigits(s)
  {
    if |s| == 0 || !IsDigit(s[|s| - 1]) then None
    else if |s| == 1 then Some(DigitValue(s[0]))
    else
      match ParseDecimal(s[..|s| - 1])
      case None => None
      case Some(n) => Some(10 * n + DigitValue(s[|s| - 1]))
  }

  /** The canonical decimal text of a code, as `str()` writes it. */
  function DecimalText(n: nat): (s: string)
    ensures |s| > 0 && AllDigits(s)
  {
    if n < 10 then [DigitChar(n)] else DecimalText(n / 10) + [DigitChar(n % 10)]
  }

  /** Parsing the decimal text of a code gives the code back. */
  lemma {:induction false} ParseDecimalText(n: nat)
    ensures ParseDecimal(DecimalText(n)) == Some(n)
  {
    var s := DecimalText(n);
    if n >= 10 {
      ParseDecimalText(n / 10);
      assert s[..|s| - 1] == DecimalText(n / 10);
    }
  }

  /** Ten to the power `k`. */
  function Pow10(k: nat): (r: nat)
    ensures r > 0
  {
    if k == 0 then 1 else 10 * Pow10(k - 1)
  }

  /** The positional value of a digit string, read from the left: the first of `n` digits weighs
      `10^(n - 1)`. */
  function PositionalValue(s: string): (r: nat)
    requires AllDigits(s)
  {
    if |s| == 0 then 0 else DigitValue(s[0]) * Pow10(|s| - 1) + PositionalValue(s[1..])
  }

  /** Multiplying by ten commutes with a digit's weight. */
  lemma ShiftPlace(d: nat, w: nat)
    ensures d * (10 * w) == 10 * (d * w)
  {
  }

  /** Appending a digit shifts the value one place and adds the digit. */
  lemma {:induction false} PositionalAppend(s: string, c: char)
    requires AllDigits(s) && IsDigit(c)
    ensures AllDigits(s + [c])
    ensures PositionalValue(s + [c]) == 10 * PositionalValue(s) + DigitValue(c)
  {
    var t := s + [c];
    assert AllDigits(t) by {
      forall i | 0 <= i < |t| ensures IsDigit(t[i]) {
        if i < |s| { assert t[i] == s[i]; }
      }
    }
    if |s| == 0 {
      assert t[1..] == [];
    } else {
      assert t[0] == s[0];
      assert t[1..] == s[1..] + [c];
      PositionalAppend(s[1..], c);
      var d := DigitValue(s[0]);
      var w := Pow10(|s| - 1);
      var rest := PositionalValue(s[1..]);
      assert PositionalValue(t[1..]) == 10 * rest + DigitValue(c);
      assert Pow10(|t| - 1) == 10 * w;
      assert PositionalValue(t) == d * (10 * w) + PositionalValue(t[1..]);
      assert PositionalValue(s) == d * w + rest;
      ShiftPlace(d, w);
    }
  }

  /** `int()` on a digit string gives its positional value, leading zeros and all. */
  lemma {:induction false} ParseDecimalPositional(s: string)
    requires |s| > 0 && AllDigits(s)
    ensures ParseDecimal(s) == Some(PositionalValue(s))
  {
    if |s| == 1 {
      assert s[1..] == [];
    } else {
      var front := s[..|s| - 1];
      assert AllDigits(front) by {
        forall i | 0 <= i < |front| ensures IsDigit(front[i]) {
          assert front[i] == s[i];
        }
      }
      ParseDecimalPositional(front);
      PositionalAppend(front, s[|s| - 1]);
      assert front + [s[|s| - 1]] == s;
    }
  }

  /** A leading zero does not change the code: "04326" coerces to 4326. */
  lemma LeadingZero(s: string)
    requires |s| > 0 && AllDigits(s)
    ensures ParseDecimal("0" + s) == ParseDecimal(s)
  {
    var t := "0" + s;
    assert AllDigits(t) by {
      forall i | 0 <= i < |t| ensures IsDigit(t[i]) {
        if i > 0 { assert t[i] == s[i - 1]; }
      }
    }
    ParseDecimalPositional(s);
    ParseDecimalPositional(t);
    assert t[1..] == s;
  }

  /** The coercion at the top of `srs_from_epsg`: an `int` is kept, anything else goes through `int()`,
      which raises ValueError on text that is not a number. */
  function CoerceEpsg(e: EpsgInput): (r: Result<int, Error>)
    ensures e.IntCode? ==> r == Ok(e.code)
    ensures e.TextCode? ==> (r.Ok? <==> ParseDecimal(e.text).Some?)
    ensures e.TextCode? && r.Ok? ==> r.value == ParseDecimal(e.text).value
    ensures r.Err? ==> r.error == ValueError
  {
    match e
    case IntCode(n) => Ok(n)
    case TextCode(s) =>
      match ParseDecimal(s)
      case None => Err(ValueError)
      case Some(n) => Ok(n)
  }

  /** `srs_from_epsg`: imports the coerced code, raises ValueError when the engine's validation
      reports corrupt data (`reportsCorrupt`, the engine's verdict, left abstract), and otherwise
      switches the reference to traditional GIS axis order (x = longitude, y = latitude). */
  function SrsFromEpsg(e: EpsgInput, reportsCorrupt: int -> bool): (r: Result<SpatialReference, Error>)
    ensures r.Ok? <==> CoerceEpsg(e).Ok? && !reportsCorrupt(CoerceEpsg(e).value)
    ensures r.Ok? ==> r.value.epsg == CoerceEpsg(e).value
    ensures r.Ok? ==> r.value.axisOrder == TraditionalGis
    ensures r.Err? ==> r.error == ValueError
  {
    var code :- CoerceEpsg(e);
    var imported := SpatialReference(code, AuthorityCompliant);
    if reportsCorrupt(code) then Err(ValueError)
    else Ok(imported.(axisOrder := TraditionalGis))
  }

  /** A code given as an `int` and the same code given as its decimal text resolve alike. */
  lemma SrsFromEpsgTextAgrees(n: nat, reportsCorrupt: int -> bool)
    ensures SrsFromEpsg(TextCode(DecimalText(n)), reportsCorrupt) == SrsFromEpsg(IntCode(n), reportsCorrupt)
  {
    ParseDecimalText(n);
  }

  // ---------------------------------------------------------------------------------------------
  // get_point, get_line, get_polygon

  /** `get_point`: JSON together with non-empty coordinates is ambiguous and raises ValueError;
      JSON alone gives a point at its longitude/latitude; non-empty coordinates alone give a point at
      their first two components; neither gives nothing. Both kinds of point carry `srs`. */
  function GetPoint(geomJson: Option<GeomJson>, coordinates: Option<CoordEntry>,
                    srs: Option<SpatialReference>): (r: Result<Option<Handle>, Error>)
    ensures JsonTruthy(geomJson) && NonEmpty(coordinates) ==> r == Err(ValueError)
    ensures JsonTruthy(geomJson) && !NonEmpty(coordinates) && geomJson.value.ApiPoint? ==>
      r == Ok(Some(PointHandle(geomJson.value.point.longitude, geomJson.value.point.latitude, srs)))
    ensures JsonTruthy(geomJson) && !NonEmpty(coordinates) && geomJson.value.ApiLine? ==>
      r == Err(TypeError)
    ensures !JsonTruthy(geomJson) && NonEmpty(coordinates) ==>
      if |coordinates.value| >= 2
      then r == Ok(Some(PointHandle(coordinates.value[0], coordinates.value[1], srs)))
      else r == Err(IndexError)
    ensures !JsonTruthy(geomJson) && !NonEmpty(coordinates) ==> r == Ok(None)
  {
    var jsonGiven := JsonTruthy(geomJson);
    var coordsGiven := NonEmpty(coordinates);
    if jsonGiven && coordsGiven then Err(ValueError)
    else if jsonGiven then
      match geomJson.value
      case ApiPoint(p) => Ok(Some(PointHandle(p.longitude, p.latitude, srs)))
      // `geom_json["longitude"]` on a list
      case ApiLine(_) => Err(TypeError)
    else if coordsGiven then
      var c := coordinates.value;
      if |c| < 2 then Err(IndexError) else Ok(Some(PointHandle(c[0], c[1], srs)))
    else Ok(None)
  }

  /** The loop of `get_line`: each record becomes a point through `get_point` (JSON only, empty
      coordinates), whose X and Y are appended to the path. That call cannot raise for a record. */
  function PathFromRecords(ps: seq<LonLat>, srs: Option<SpatialReference>): (vs: seq<Vertex>)
    ensures |vs| == |ps|
    ensures forall i :: 0 <= i < |ps| ==> vs[i] == (ps[i].longitude, ps[i].latitude)
  {
    if |ps| == 0 then []
    else
      var front := PathFromRecords(ps[..|ps| - 1], srs);
      match GetPoint(Some(ApiPoint(ps[|ps| - 1])), Some([]), srs)
      case Ok(Some(pnt)) =>
        (match ReadXY(pnt)
         case Ok(xy) => front + [xy]
         case Err(_) => assert false; [])
      case _ => assert false; []
  }

  /** `get_line`: nothing for `None`; for a list of records, a line string with one vertex per record,
      in order, carrying `srs`. A single dict is iterated key by key, and indexing a key string raises
      TypeError. */
  function GetLine(geomJson: Option<GeomJson>, srs: Option<SpatialReference>): (r: Result<Option<Handle>, Error>)
    ensures geomJson.None? ==> r == Ok(None)
    ensures geomJson.Some? && geomJson.value.ApiPoint? ==> r == Err(TypeError)
    ensures geomJson.Some? && geomJson.value.ApiLine? ==>
      r.Ok? && r.value.Some? && r.value.value.LineHandle? && r.value.value.srs == srs &&
      |r.value.value.vertices| == |geomJson.value.points| &&
      forall i :: 0 <= i < |geomJson.value.points| ==>
        r.value.value.vertices[i] == (geomJson.value.points[i].longitude, geomJson.value.points[i].latitude)
  {
    match geomJson
    case None => Ok(None)
    case Some(ApiPoint(_)) => Err(TypeError)
    case Some(ApiLine(ps)) => Ok(Some(LineHandle(PathFromRecords(ps, srs), srs)))
  }

  /** The loop of `get_polygon`: `AddPoint_2D(*coord)` accepts an entry of exactly two numbers and
      raises TypeError for any other length. */
  function EntriesToVertices(coords: CoordList): (r: Result<seq<Vertex>, Error>)
    ensures r.Ok? <==> forall i :: 0 <= i < |coords| ==> |coords[i]| == 2
    ensures r.Ok? ==> |r.value| == |coords|
    ensures r.Ok? ==> forall i :: 0 <= i < |coords| ==> r.value[i] == (coords[i][0], coords[i][1])
    ensures r.Err? ==> r.error == TypeError
  {
    if |coords| == 0 then Ok([])
    else
      var front :- EntriesToVertices(coords[..|coords| - 1]);
      var c := coords[|coords| - 1];
      if |c| != 2 then Err(TypeError) else Ok(front + [(c[0], c[1])])
  }

  /** The entries `[x, y]` of a vertex list, as shapely hands a ring's coordinates back. */
  function VerticesToEntries(vs: seq<Vertex>): (r: CoordList)
    ensures |r| == |vs|
    ensures forall i :: 0 <= i < |vs| ==> r[i] == [vs[i].0, vs[i].1]
  {
    seq(|vs|, i requires 0 <= i < |vs| => [vs[i].0, vs[i].1])
  }

  /** Vertices written out as entries are read back unchanged. */
  lemma EntriesRoundTrip(vs: seq<Vertex>)
    ensures EntriesToVertices(VerticesToEntries(vs)) == Ok(vs)
  {
    var r := EntriesToVertices(VerticesToEntries(vs));
    assert r.Ok?;
    assert r.value == vs;
  }

  /** `get_polygon`: a polygon of exactly one ring holding the given coordinates in order, closed by
      the engine (`CloseRings`), carrying `srs`. */
  function GetPolygon(coords: CoordList, srs: Option<SpatialReference>): (r: Result<Handle, Error>)
    ensures r.Ok? <==> forall i :: 0 <= i < |coords| ==> |coords[i]| == 2
    ensures r.Err? ==> r.error == TypeError
    ensures r.Ok? ==> r.value.PolygonHandle? && |r.value.rings| == 1 && r.value.srs == srs
    ensures r.Ok? ==> Closed(r.value.rings[0])
    ensures r.Ok? ==> |coords| <= |r.value.rings[0]| <= |coords| + 1
    ensures r.Ok? ==> forall i :: 0 <= i < |coords| ==> r.value.rings[0][i] == (coords[i][0], coords[i][1])
    ensures r.Ok? && |r.value.rings[0]| == |coords| + 1 ==> r.value.rings[0][|coords|] == r.value.rings[0][0]
  {
    var ring :- EntriesToVertices(coords);
    var closed := CloseRing(ring);
    assert forall i :: 0 <= i < |ring| ==> closed[i] == closed[..|ring|][i];
    Ok(PolygonHandle([closed], srs))
  }

  /** Building a polygon from a ring that is already closed keeps the ring exactly. */
  lemma GetPolygonOfClosedRing(vs: seq<Vertex>, srs: Option<SpatialReference>)
    requires Closed(vs)
    ensures GetPolygon(VerticesToEntries(vs), srs) == Ok(PolygonHandle([vs], srs))
  {
    EntriesRoundTrip(vs);
  }

  // ---------------------------------------------------------------------------------------------
  // to_shapely

  /** The shapely value a geometry is converted to: a point, a line string, or a polygon given by its
      exterior ring. */
  datatype Shape = ShapelyPoint(v: Vertex) | ShapelyLine(coords: seq<Vertex>) | ShapelyPolygon(exterior: seq<Vertex>)

  /** `to_shapely`: dispatches on the geometry type tag; "point" reads X and Y, "polyline" takes the
      vertex list, "polygon" takes ring 0; any other tag gives `None`. The handle is only touched by a
      recognised tag, and a missing handle then raises AttributeError. */
  function ToShapely(h: Option<Handle>, tag: string): (r: Result<Option<Shape>, Error>)
    ensures tag != "point" && tag != "polyline" && tag != "polygon" ==> r == Ok(None)
    ensures (tag == "point" || tag == "polyline" || tag == "polygon") && h.None? ==> r == Err(AttributeError)
    ensures tag == "point" && h.Some? && h.value.PointHandle? ==>
      r == Ok(Some(ShapelyPoint((h.value.x, h.value.y))))
    ensures tag == "polyline" && h.Some? && h.value.LineHandle? ==>
      r == Ok(Some(ShapelyLine(h.value.vertices)))
    ensures tag == "polygon" && h.Some? && h.value.PolygonHandle? && |h.value.rings| > 0 ==>
      r == Ok(Some(ShapelyPolygon(h.value.rings[0])))
    ensures r.Ok? && r.value.Some? ==> (r.value.value.ShapelyPoint? <==> tag == "point")
    ensures r.Ok? && r.value.Some? ==> (r.value.value.ShapelyLine? <==> tag == "polyline")
  {
    if tag == "point" then
      if h.None? then Err(AttributeError)
      else
        var v :- ReadXY(h.value);
        Ok(Some(ShapelyPoint(v)))
    else if tag == "polyline" then
      if h.None? then Err(AttributeError)
      else
        // `LineString(None)` is the empty line string
        Ok(Some(ShapelyLine(match HandlePoints(h.value) case Some(vs) => vs case None => [])))
    else if tag == "polygon" then
      if h.None? then Err(AttributeError)
      else
        var ring :- RingPoints(h.value);
        // `Polygon(None)` is the empty polygon
        Ok(Some(ShapelyPolygon(match ring case Some(vs) => vs case None => [])))
    else Ok(None)
  }

  /** `shapely.ops.transform(f, shape)`: every vertex of the shape rewritten by `f`, shape kept.
      The conversion result `None` has no geometry interface and raises AttributeError. */
  function MapShape(f: Transformer, s: Option<Shape>): (r: Result<Shape, Error>)
    ensures s.None? ==> r == Err(AttributeError)
    ensures s.Some? && s.value.ShapelyPoint? ==>
      (r.Ok? <==> f(s.value.v).Ok?) && (r.Ok? ==> r.value == ShapelyPoint(f(s.value.v).value))
    ensures s.Some? && s.value.ShapelyLine? ==>
      (r.Ok? <==> MapVertices(f, s.value.coords).Ok?) &&
      (r.Ok? ==> r.value == ShapelyLine(MapVertices(f, s.value.coords).value))
    ensures s.Some? && s.value.ShapelyPolygon? ==>
      (r.Ok? <==> MapVertices(f, s.value.exterior).Ok?) &&
      (r.Ok? ==> r.value == ShapelyPolygon(MapVertices(f, s.value.exterior).value))
  {
    match s
    case None => Err(AttributeError)
    case Some(ShapelyPoint(v)) =>
      var w :- f(v);
      Ok(ShapelyPoint(w))
    case Some(ShapelyLine(vs)) =>
      var ws :- MapVertices(f, vs);
      Ok(ShapelyLine(ws))
    case Some(ShapelyPolygon(vs)) =>
      var ws :- MapVertices(f, vs);
      Ok(ShapelyPolygon(ws))
  }

  /** `.coords` of a shape: a polygon has no single coordinate sequence and shapely raises. */
  function ShapeCoords(s: Shape): (r: Result<seq<Vertex>, Error>)
    ensures s.ShapelyPoint? ==> r == Ok([s.v])
    ensures s.ShapelyLine? ==> r == Ok(s.coords)
    ensures s.ShapelyPolygon? ==> r == Err(EngineError)
  {
    match s
    case ShapelyPoint(v) => Ok([v])
    case ShapelyLine(vs) => Ok(vs)
    case ShapelyPolygon(_) => Err(EngineError)
  }

  /** `.exterior` of a shape: only a polygon has one. */
  function ShapeExterior(s: Shape): (r: Result<seq<Vertex>, Error>)
    ensures s.ShapelyPolygon? <==> r.Ok?
    ensures s.ShapelyPolygon? ==> r.value == s.exterior
    ensures r.Err? ==> r.error == AttributeError
  {
    match s
    case ShapelyPolygon(vs) => Ok(vs)
    case _ => Err(AttributeError)
  }
}

=== FILE: line_geometry.dfy ===
/** `LineGeometry`: a line string built from a list of API records, or parsed by the engine from WKB
    or from GeoJSON text; plus `get_line_from_point_list`, which builds one from coordinate entries. */
module LineGeometry {
  import opened Wrappers
  import opened Engine
  import opened GeometryUtils
  import opened BaseGeometry

  /** The engine's parsers (`CreateGeometryFromWkb`, `CreateGeometryFromJson`), left abstract. Both may
      raise, and either may produce a handle of any geometry type. */
  datatype Parsers = Parsers(
    fromWkb: seq<bv8> -> Result<Handle, Error>,
    fromJson: string -> Result<Handle, Error>)

  /** `LineGeometry.__init__`. With neither `coordinates` nor `geom_json` there is no handle, whatever
      engine input is given. Otherwise WKB takes precedence over engine JSON, which takes precedence
      over `get_line(geom_json)`; a parsed handle is stamped with `srs`, and the engine JSON branch
      replaces `geom_json` with the JSON text. Coordinates alone reach `get_line(None)` and build
      nothing. */
  function Construct(geomJson: Option<GeomJson>, coordinates: Option<CoordList>,
                     ogrJson: Option<string>, ogrWkb: Option<seq<bv8>>,
                     srs: Option<SpatialReference>, parsers: Parsers): (r: Result<GeomObject, Error>)
    ensures var o := Init(LineClass, geomJson, coordinates, srs);
      && (coordinates.None? && geomJson.None? ==> r == Ok(o))
      && (!(coordinates.None? && geomJson.None?) && NonEmpty(ogrWkb) ==>
            match parsers.fromWkb(ogrWkb.value)
            case Err(e) => r == Err(e)
            case Ok(h) => r == Ok(o.(geometry := Some(Stamp(h, srs)))))
      && (!(coordinates.None? && geomJson.None?) && !NonEmpty(ogrWkb) && NonEmpty(ogrJson) ==>
            match parsers.fromJson(ogrJson.value)
            case Err(e) => r == Err(e)
            case Ok(h) => r == Ok(o.(geometry := Some(Stamp(h, srs)), geomJson := Some(FromOgrJson(ogrJson.value)))))
      && (!(coordinates.None? && geomJson.None?) && !NonEmpty(ogrWkb) && !NonEmpty(ogrJson) ==>
            match GetLine(geomJson, srs)
            case Err(e) => r == Err(e)
            case Ok(h) => r == Ok(o.(geometry := h)))
  {
    var o := Init(LineClass, geomJson, coordinates, srs);
    if coordinates.None? && geomJson.None? then Ok(o.(geometry := None))
    else if NonEmpty(ogrWkb) then
      var h :- parsers.fromWkb(ogrWkb.value);
      // FlattenTo2D: handles are two-dimensional already
      Ok(o.(geometry := Some(Stamp(h, srs))))
    else if NonEmpty(ogrJson) then
      var h :- parsers.fromJson(ogrJson.value);
      Ok(o.(geometry := Some(Stamp(h, srs)), geomJson := Some(FromOgrJson(ogrJson.value))))
    else
      var h :- GetLine(geomJson, srs);
      Ok(o.(geometry := h))
  }

  /** Coordinates without `geom_json` never build a line: `get_line(None)` returns nothing. */
  lemma CoordinatesAloneBuildNothing(coordinates: CoordList, srs: Option<SpatialReference>, parsers: Parsers)
    ensures Construct(None, Some(coordinates), None, None, srs, parsers) ==
            Ok(Init(LineClass, None, Some(coordinates), srs))
  {
  }

  /** A line built from a list of API records: the `coordinates` attribute and the handle agree entry
      by entry, the handle carries `srs`, and `points` lists the records' positions in order. */
  lemma LineFromRecordsAgrees(ps: seq<LonLat>, srs: Option<SpatialReference>, parsers: Parsers)
    requires |ps| > 0
    ensures Construct(Some(ApiLine(ps)), None, None, None, srs, parsers).Ok?
    ensures var o := Construct(Some(ApiLine(ps)), None, None, None, srs, parsers).value;
      && o.coordinates.Some? && o.geometry.Some? && o.geometry.value.LineHandle?
      && SpatialReferenceOf(o) == srs
      && |o.coordinates.value| == |o.geometry.value.vertices| == |ps|
      && (forall i :: 0 <= i < |ps| ==>
            o.coordinates.value[i] == [o.geometry.value.vertices[i].0, o.geometry.value.vertices[i].1])
      && Points(o) == Some(o.geometry.value.vertices)
      && (forall i :: 0 <= i < |ps| ==> Points(o).value[i] == (ps[i].longitude, ps[i].latitude))
  {
    var o := Construct(Some(ApiLine(ps)), None, None, None, srs, parsers).value;
    assert o.coordinates == Some(LonLatPairs(ps));
  }

  /** `firstPoint`: `points[0]`, a property only `LineGeometry` defines, so any other object raises
      AttributeError. `points` is `None` with no handle and for a handle with no vertices, and indexing
      `None` raises TypeError; a vertex list the engine gives is never empty, so the IndexError of an
      empty list cannot arise. */
  function FirstPoint(o: GeomObject): (r: Result<Vertex, Error>)
    ensures o.cls != LineClass ==> r == Err(AttributeError)
    ensures o.cls == LineClass ==> (r == Err(TypeError) <==> Points(o).None?)
    ensures o.cls == LineClass && Points(o).Some? ==> r == Ok(Points(o).value[0])
  {
    if o.cls != LineClass then Err(AttributeError)
    else
      match Points(o)
      case None => Err(TypeError)
      case Some(vs) => Ok(vs[0])
  }

  /** `lastPoint`: `points[-1]`, under the same conditions as `firstPoint`. */
  function LastPoint(o: GeomObject): (r: Result<Vertex, Error>)
    ensures o.cls != LineClass ==> r == Err(AttributeError)
    ensures o.cls == LineClass ==> (r == Err(TypeError) <==> Points(o).None?)
    ensures o.cls == LineClass && Points(o).Some? ==> r == Ok(Points(o).value[|Points(o).value| - 1])
  {
    if o.cls != LineClass then Err(AttributeError)
    else
      match Points(o)
      case None => Err(TypeError)
      case Some(vs) => Ok(vs[|vs| - 1])
  }

  /** A line built from an empty list of API records is a line string without vertices: it has a
      handle, but `points` is `None`, so both end points raise TypeError. */
  lemma EmptyLineHasNoEndPoints(srs: Option<SpatialReference>, parsers: Parsers)
    ensures Construct(Some(ApiLine([])), None, None, None, srs, parsers).Ok?
    ensures var o := Construct(Some(ApiLine([])), None, None, None, srs, parsers).value;
      && o.geometry.Some? && o.geometry.value.LineHandle? && PointCount(o) == Some(0)
      && FirstPoint(o) == Err(TypeError) && LastPoint(o) == Err(TypeError)
  {
  }

  /** The end points of a line built from API records are the first and the last record. */
  lemma EndPointsOfRecords(ps: seq<LonLat>, srs: Option<SpatialReference>, parsers: Parsers)
    requires |ps| > 0
    requires Construct(Some(ApiLine(ps)), None, None, None, srs, parsers).Ok?
    ensures var o := Construct(Some(ApiLine(ps)), None, None, None, srs, parsers).value;
      && FirstPoint(o) == Ok((ps[0].longitude, ps[0].latitude))
      && LastPoint(o) == Ok((ps[|ps| - 1].longitude, ps[|ps| - 1].latitude))
  {
    LineFromRecordsAgrees(ps, srs, parsers);
  }

  /** `lineType`: the engine's geometry name; nothing without a handle. */
  function LineType(o: GeomObject): (r: Option<string>)
    ensures r.None? <==> o.geometry.None?
    ensures o.geometry.Some? && o.geometry.value.LineHandle? ==> r == Some("LINESTRING")
  {
    match o.geometry
    case None => None
    case Some(h) => Some(GeometryName(h))
  }

  /** `partCount`: the engine's sub-geometry count; nothing without a handle. */
  function PartCount(o: GeomObject): (r: Option<nat>)
    ensures r.None? <==> o.geometry.None?
    ensures o.geometry.Some? && !o.geometry.value.PolygonHandle? ==> r == Some(0)
  {
    match o.geometry
    case None => None
    case Some(h) => Some(GeometryCount(h))
  }

  /** The loop of `get_line_from_point_list`: the first two components of each entry, in order; an
      entry with fewer than two raises IndexError. */
  function LeadingPairs(entries: CoordList): (r: Result<seq<Vertex>, Error>)
    ensures r.Ok? <==> forall i :: 0 <= i < |entries| ==> |entries[i]| >= 2
    ensures r.Ok? ==> |r.value| == |entries|
    ensures r.Ok? ==> forall i :: 0 <= i < |entries| ==> r.value[i] == (entries[i][0], entries[i][1])
    ensures r.Err? ==> r.error == IndexError
  {
    if |entries| == 0 then Ok([])
    else
      var front :- LeadingPairs(entries[..|entries| - 1]);
      var e := entries[|entries| - 1];
      if |e| < 2 then Err(IndexError) else Ok(front + [(e[0], e[1])])
  }

  /** `get_line_from_point_list` (a helper of the utilities file, placed here because it builds a
      `LineGeometry`): an argument-less `LineGeometry()` whose handle becomes a line string through the
      first two components of every entry, stamped with `srs`. */
  function GetLineFromPointList(pointList: CoordList, srs: Option<SpatialReference>): (r: Result<GeomObject, Error>)
    ensures r.Ok? <==> forall i :: 0 <= i < |pointList| ==> |pointList[i]| >= 2
    ensures r.Err? ==> r.error == IndexError
    ensures r.Ok? ==> r.value.cls == LineClass && r.value.coordinates.None? && r.value.geomJson.None?
    ensures r.Ok? ==> r.value.geometry.Some? && r.value.geometry.value.LineHandle?
    ensures r.Ok? ==> SpatialReferenceOf(r.value) == srs
    ensures r.Ok? ==> |r.value.geometry.value.vertices| == |pointList|
    ensures r.Ok? ==> forall i :: 0 <= i < |pointList| ==>
      r.value.geometry.value.vertices[i] == (pointList[i][0], pointList[i][1])
  {
    var vs :- LeadingPairs(pointList);
    // `LineGeometry()`: with no inputs the constructor leaves the base state untouched
    var empty := Init(LineClass, None, None, None);
    Ok(empty.(geometry := Some(LineHandle(vs, srs))))
  }

  /** Building from the entries of some vertices gives back exactly those vertices, stamped with `srs`. */
  lemma LineFromVerticesAgrees(vs: seq<Vertex>, srs: Option<SpatialReference>)
    ensures GetLineFromPointList(VerticesToEntries(vs), srs).Ok?
    ensures GetLineFromPointList(VerticesToEntries(vs), srs).value.geometry == Some(LineHandle(vs, srs))
  {
    var r := GetLineFromPointList(VerticesToEntries(vs), srs).value;
    assert r.geometry.value.vertices == vs;
  }

  /** The argument-less constructor used by `get_line_from_point_list` is the bare base state. */
  lemma EmptyLineIsBaseState(parsers: Parsers)
    ensures Construct(None, None, None, None, None, parsers) == Ok(Init(LineClass, None, None, None))
  {
  }
}

=== FILE: point_geometry.dfy ===
/** `PointGeometry`: a point built from one API record or from one coordinate entry.
    The constructor calls `get_point` with one of its arguments left out; `Construct` models the
    evidently intended call, with that argument absent (`None`), and `ConstructAsWritten` the call as
    it stands. */
module PointGeometry {
  import opened Wrappers
  import opened Engine
  import opened GeometryUtils
  import opened BaseGeometry

  /** `PointGeometry.__init__`. Three checks run in turn: a `coordinates` list of exactly one entry
      builds the point from that entry; no input at all leaves no handle; JSON with no `coordinates`
      builds the point from the JSON. Any other input (coordinates of another length, such as a bare
      `[x, y]` or `[]`) leaves no handle. */
  function Construct(geomJson: Option<GeomJson>, coordinates: Option<CoordList>,
                     srs: Option<SpatialReference>): (r: Result<GeomObject, Error>)
    ensures r.Ok? ==> r.value == Init(PointClass, geomJson, coordinates, srs).(geometry := r.value.geometry)
    ensures coordinates.None? && geomJson.None? ==> r.Ok? && r.value.geometry.None?
    ensures coordinates.Some? && |coordinates.value| != 1 ==> r.Ok? && r.value.geometry.None?
    ensures coordinates.Some? && |coordinates.value| == 1 ==>
      var entry := coordinates.value[0];
      && (|entry| == 0 ==> r.Ok? && r.value.geometry.None?)
      && (|entry| == 1 ==> r == Err(IndexError))
      && (|entry| >= 2 ==> r.Ok? && r.value.geometry == Some(PointHandle(entry[0], entry[1], srs)))
    ensures coordinates.None? && geomJson.Some? && geomJson.value.ApiPoint? ==>
      r.Ok? && r.value.geometry == Some(PointHandle(geomJson.value.point.longitude, geomJson.value.point.latitude, srs))
    ensures coordinates.None? && geomJson.Some? && geomJson.value.ApiLine? ==>
      if |geomJson.value.points| == 0 then r.Ok? && r.value.geometry.None? else r == Err(TypeError)
  {
    var o := Init(PointClass, geomJson, coordinates, srs);
    // one coordinate entry: `get_point(coordinates=self.coordinates[0], ...)`, no JSON argument
    var fromEntry :-
      if NonEmpty(coordinates) && |coordinates.value| == 1 then
        var h :- GetPoint(None, Some(o.coordinates.value[0]), srs);
        Ok(o.(geometry := h))
      else Ok(o);
    // empty geometry
    var emptied := if coordinates.None? && geomJson.None? then fromEntry.(geometry := None) else fromEntry;
    // JSON: `get_point(geom_json=geom_json, ...)`, no coordinates argument
    if coordinates.None? && geomJson.Some? then
      var h :- GetPoint(geomJson, None, srs);
      Ok(emptied.(geometry := h))
    else Ok(emptied)
  }

  /** `PointGeometry.__init__` as written: `get_point` declares all three parameters without defaults,
      and both calls here leave one out, so every input that reaches a call raises TypeError before
      `get_point` runs; the other inputs end as `Construct` does. */
  function ConstructAsWritten(geomJson: Option<GeomJson>, coordinates: Option<CoordList>,
                              srs: Option<SpatialReference>): (r: Result<GeomObject, Error>)
    ensures r.Err? <==> (coordinates.Some? && |coordinates.value| == 1) || (coordinates.None? && geomJson.Some?)
    ensures r.Err? ==> r.error == TypeError
    ensures r.Ok? ==> r.value.geometry.None? && r == Construct(geomJson, coordinates, srs)
  {
    var callsWithEntry := NonEmpty(coordinates) && |coordinates.value| == 1;
    var callsWithJson := coordinates.None? && geomJson.Some?;
    if callsWithEntry || callsWithJson then Err(TypeError)
    else Construct(geomJson, coordinates, srs)
  }

  /** As written, no point can be built at all: an API record and a one-entry coordinate list both
      raise, where the intended constructor builds the point. */
  lemma NoPointAsWritten(p: LonLat, entry: CoordEntry, srs: SpatialReference)
    requires |entry| >= 2
    ensures ConstructAsWritten(Some(ApiPoint(p)), None, Some(srs)) == Err(TypeError)
    ensures ConstructAsWritten(None, Some([entry]), Some(srs)) == Err(TypeError)
    ensures Construct(Some(ApiPoint(p)), None, Some(srs)).Ok?
    ensures Construct(None, Some([entry]), Some(srs)) ==
            Ok(Init(PointClass, None, Some([entry]), Some(srs)).(geometry := Some(PointHandle(entry[0], entry[1], Some(srs)))))
  {
  }

  /** `get_point` is always given at most one source here, so construction never raises the
      ambiguity ValueError that `get_point` reserves for JSON plus coordinates. */
  lemma ConstructNeverAmbiguous(geomJson: Option<GeomJson>, coordinates: Option<CoordList>,
                                srs: Option<SpatialReference>)
    ensures Construct(geomJson, coordinates, srs) != Err(ValueError)
  {
  }

  /** `X`: the handle's x; a missing handle raises AttributeError, and so does an object of another
      class, which has no `X` property. */
  function X(o: GeomObject): (r: Result<Coord, Error>)
    ensures o.cls != PointClass || o.geometry.None? ==> r == Err(AttributeError)
    ensures o.cls == PointClass && o.geometry.Some? && o.geometry.value.PointHandle? ==> r == Ok(o.geometry.value.x)
  {
    if o.cls != PointClass || o.geometry.None? then Err(AttributeError)
    else
      var v :- ReadXY(o.geometry.value);
      Ok(v.0)
  }

  /** `Y`: the handle's y, under the same conditions as `X`. */
  function Y(o: GeomObject): (r: Result<Coord, Error>)
    ensures o.cls != PointClass || o.geometry.None? ==> r == Err(AttributeError)
    ensures o.cls == PointClass && o.geometry.Some? && o.geometry.value.PointHandle? ==> r == Ok(o.geometry.value.y)
  {
    if o.cls != PointClass || o.geometry.None? then Err(AttributeError)
    else
      var v :- ReadXY(o.geometry.value);
      Ok(v.1)
  }

  /** `PointGeometry.JSON`: `{x, y, spatialReference: {wkid}}`. There is no guard for a missing handle:
      reading `X` then raises, as does a handle without a reference. */
  function Json(o: GeomObject): (r: Result<EsriJson, Error>)
    ensures o.cls == PointClass && o.geometry.None? ==> r == Err(AttributeError)
    ensures r.Ok? ==> r.value.PointJson? && SpatialReferenceOf(o).Some? &&
                      r.value.wkid == SpatialReferenceOf(o).value.epsg &&
                      X(o) == Ok(r.value.x) && Y(o) == Ok(r.value.y)
    ensures o.cls == PointClass && o.geometry.Some? && o.geometry.value.PointHandle? ==>
      (r.Ok? <==> o.geometry.value.srs.Some?)
  {
    var x :- X(o);
    var y :- Y(o);
    match SpatialReferenceOf(o)
    case None => Err(AttributeError)
    case Some(s) => Ok(PointJson(x, y, s.epsg))
  }

  /** A point built from an API record: its `coordinates` attribute is that record's single
      `[longitude, latitude]` entry, its handle lies at the same place, and its JSON gives the
      record's longitude and latitude back under the reference's code. */
  lemma PointFromRecordAgrees(p: LonLat, srs: SpatialReference)
    ensures Construct(Some(ApiPoint(p)), None, Some(srs)).Ok?
    ensures var o := Construct(Some(ApiPoint(p)), None, Some(srs)).value;
      && o.coordinates == Some([[p.longitude, p.latitude]])
      && Points(o) == Some([(o.coordinates.value[0][0], o.coordinates.value[0][1])])
      && Json(o) == Ok(PointJson(p.longitude, p.latitude, srs.epsg))
      && WellFormed(o)
  {
  }

  /** Every point the constructor builds is well formed. */
  lemma ConstructWellFormed(geomJson: Option<GeomJson>, coordinates: Option<CoordList>,
                            srs: Option<SpatialReference>)
    requires Construct(geomJson, coordinates, srs).Ok?
    ensures WellFormed(Construct(geomJson, coordinates, srs).value)
  {
  }
}

=== FILE: polygon_geometry.dfy ===
/** `PolygonGeometry`: a single-ring polygon built from coordinate entries. Construction from API JSON
    is not supported by the class and builds nothing. */
module PolygonGeometry {
  import opened Wrappers
  import opened Engine
  import opened GeometryUtils
  import opened BaseGeometry

  /** `PolygonGeometry.__init__`: truthy coordinates with no truthy JSON build the polygon through
      `get_polygon` (one ring, closed, stamped with `srs`); any other input leaves no handle. */
  function Construct(geomJson: Option<GeomJson>, coordinates: Option<CoordList>,
                     srs: Option<SpatialReference>): (r: Result<GeomObject, Error>)
    ensures var o := Init(PolygonClass, geomJson, coordinates, srs);
      && (!(NonEmpty(coordinates) && !JsonTruthy(geomJson)) ==> r == Ok(o))
      && (NonEmpty(coordinates) && !JsonTruthy(geomJson) ==>
            match GetPolygon(coordinates.value, srs)
            case Err(e) => r == Err(e)
            case Ok(h) => r == Ok(o.(geometry := Some(h))))
  {
    var o := Init(PolygonClass, geomJson, coordinates, srs);
    var coordsGiven := NonEmpty(coordinates);
    var jsonGiven := JsonTruthy(geomJson);
    var cleared := if !coordsGiven && !jsonGiven then o.(geometry := None) else o;
    if coordsGiven && !jsonGiven then
      var h :- GetPolygon(coordinates.value, srs);
      // FlattenTo2D: handles are two-dimensional already
      Ok(cleared.(geometry := Some(h)))
    else Ok(cleared)
  }

  /** Supplying `geom_json`, with or without coordinates, builds no handle. */
  lemma JsonBuildsNothing(geomJson: GeomJson, coordinates: Option<CoordList>, srs: Option<SpatialReference>)
    requires JsonTruthy(Some(geomJson))
    ensures Construct(Some(geomJson), coordinates, srs).Ok?
    ensures Construct(Some(geomJson), coordinates, srs).value.geometry.None?
  {
  }

  /** `PolygonGeometry.points`: the vertices of ring 0 only; nothing without a handle or when ring 0
      has no vertices. */
  function Points(o: GeomObject): (r: Result<Option<seq<Vertex>>, Error>)
    ensures o.geometry.None? ==> r == Ok(None)
    ensures o.geometry.Some? && !o.geometry.value.PolygonHandle? ==> r == Err(EngineError)
    ensures o.geometry.Some? && o.geometry.value.PolygonHandle? ==>
      (r.Ok? <==> |o.geometry.value.rings| > 0) && (r.Err? ==> r.error == AttributeError)
    ensures o.geometry.Some? && r.Ok? ==> (r.value.None? <==> |o.geometry.value.rings[0]| == 0)
    ensures o.geometry.Some? && r.Ok? && r.value.Some? ==> r.value.value == o.geometry.value.rings[0]
  {
    match o.geometry
    case None => Ok(None)
    case Some(h) => RingPoints(h)
  }

  /** `PolygonGeometry.JSON`: nothing without a handle; otherwise `rings` is the engine's exported
      coordinates as they are (an array of rings) with the reference's code. A handle with no reference
      raises AttributeError. */
  function Json(o: GeomObject): (r: Result<Option<EsriJson>, Error>)
    ensures o.geometry.None? ==> r == Ok(None)
    ensures o.geometry.Some? ==> (r.Ok? <==> SpatialReferenceOf(o).Some?)
    ensures r.Err? ==> r.error == AttributeError
    ensures r.Ok? && r.value.Some? ==>
      r.value.value.RingsJson? && r.value.value.wkid == SpatialReferenceOf(o).value.epsg &&
      r.value.value.rings == ExportCoordinates(o.geometry.value)
  {
    match o.geometry
    case None => Ok(None)
    case Some(h) =>
      match SpatialReferenceOf(o)
      case None => Err(AttributeError)
      case Some(s) => Ok(Some(RingsJson(ExportCoordinates(h), s.epsg)))
  }

  /** A polygon built from the vertices of a ring: it is well formed, `points` is the closed ring, which
      starts with the given vertices in order, `pointCount` is the engine's 0 for polygons, and the JSON
      `rings` hold that one ring. */
  lemma PolygonFromVerticesAgrees(vs: seq<Vertex>, srs: SpatialReference)
    requires |vs| > 0
    ensures Construct(None, Some(VerticesToEntries(vs)), Some(srs)).Ok?
    ensures var o := Construct(None, Some(VerticesToEntries(vs)), Some(srs)).value;
      && WellFormed(o)
      && Points(o) == Ok(Some(CloseRing(vs)))
      && CloseRing(vs)[..|vs|] == vs
      && PointCount(o) == Some(0)
      && Json(o) == Ok(Some(RingsJson(Array([Array(Positions(CloseRing(vs)))]), srs.epsg)))
  {
    EntriesRoundTrip(vs);
    var o := Construct(None, Some(VerticesToEntries(vs)), Some(srs)).value;
    assert o.geometry == Some(PolygonHandle([CloseRing(vs)], Some(srs)));
    assert ExportCoordinates(o.geometry.value).items == [Array(Positions(CloseRing(vs)))];
  }

  /** Every polygon the constructor builds is well formed. */
  lemma ConstructWellFormed(geomJson: Option<GeomJson>, coordinates: Option<CoordList>,
                            srs: Option<SpatialReference>)
    requires Construct(geomJson, coordinates, srs).Ok?
    ensures WellFormed(Construct(geomJson, coordinates, srs).value)
  {
  }
}

=== FILE: reprojection.dfy ===
/** What the two transformation dispatchers share: the engine services they call, the transformer
    attribute they fill at setup, direct reprojection, and the per-variant rebuilding of a geometry
    through a transformer (the three branches of `transform_geometry`, written alike in both files). */
module Reprojection {
  import opened Wrappers
  import opened Engine
  import opened GeometryUtils
  import opened BaseGeometry
  import PointGeometry

  /** The projection services of GDAL/OSR and pyproj, left abstract:
      `reportsCorrupt` is the verdict of `Validate()` on an imported EPSG code;
      `project` reprojects one vertex between two references (what `TransformTo` does to each vertex);
      `transformerGroup` is `TransformerGroup(...).transformers` for two configured codes, in the
      library's own ranking, and may raise;
      `fromPipeline` is `Transformer.from_pipeline`, `None` when the text does not compile. */
  datatype Proj = Proj(
    reportsCorrupt: int -> bool,
    project: (SpatialReference, SpatialReference, Vertex) -> Result<Vertex, Error>,
    transformerGroup: (Option<EpsgInput>, Option<EpsgInput>) -> Result<seq<Transformer>, Error>,
    fromPipeline: string -> Option<Transformer>)

  /** The `transformer` attribute: never assigned, or assigned a transformer or `None`. */
  datatype TransformerSlot = Unassigned | Assigned(transformer: Option<Transformer>)

  /** A geometry after a `transform(...)` call, and the exception the call raised, if any. */
  datatype Applied = Applied(geometry: GeomObject, raised: Option<Error>)

  /** The geometry after a single-step call: the new state, or the untouched one when it raised. */
  function Settle(r: Result<GeomObject, Error>, before: GeomObject): (a: Applied)
    ensures r.Ok? ==> a == Applied(r.value, None)
    ensures r.Err? ==> a == Applied(before, Some(r.error))
  {
    match r
    case Ok(o) => Applied(o, None)
    case Err(e) => Applied(before, Some(e))
  }

  /** `geometry.geometry.TransformTo(target)`: a missing handle or a missing target attribute raises
      AttributeError; otherwise the engine reprojects the handle, which stays of the same kind, keeps its
      vertex count and carries `target`. Nothing but the handle changes. */
  function Reproject(p: Proj, o: GeomObject, target: Option<SpatialReference>): (r: Result<GeomObject, Error>)
    ensures o.geometry.None? || target.None? ==> r == Err(AttributeError)
    ensures o.geometry.Some? && target.Some? ==>
      match TransformTo(p.project, o.geometry.value, target.value)
      case Err(e) => r == Err(e)
      case Ok(h) => r == Ok(o.(geometry := Some(h)))
    ensures r.Ok? ==> SpatialReferenceOf(r.value) == target
  {
    if o.geometry.None? || target.None? then Err(AttributeError)
    else
      var h :- TransformTo(p.project, o.geometry.value, target.value);
      Ok(o.(geometry := Some(h)))
  }

  /** Reprojection keeps every ring of a polygon closed. */
  lemma TransformToKeepsClosed(project: (SpatialReference, SpatialReference, Vertex) -> Result<Vertex, Error>,
                               h: Handle, target: SpatialReference)
    requires h.PolygonHandle? && h.srs.Some?
    requires TransformTo(project, h, target).Ok?
    requires forall i :: 0 <= i < |h.rings| ==> Closed(h.rings[i])
    ensures forall i :: 0 <= i < |h.rings| ==> Closed(TransformTo(project, h, target).value.rings[i])
  {
    var f := Projector(project, h.srs.value, target);
    var r := TransformTo(project, h, target).value;
    assert MapRings(f, h.rings) == Ok(r.rings);
    forall i | 0 <= i < |h.rings|
      ensures Closed(r.rings[i])
    {
      assert MapVertices(f, h.rings[i]) == Ok(r.rings[i]);
      MapKeepsClosed(f, h.rings[i]);
    }
  }

  /** Reprojection keeps a geometry well formed. */
  lemma ReprojectWellFormed(p: Proj, o: GeomObject, target: Option<SpatialReference>)
    requires WellFormed(o)
    requires Reproject(p, o, target).Ok?
    ensures WellFormed(Reproject(p, o, target).value)
  {
    if o.cls == PolygonClass {
      TransformToKeepsClosed(p.project, o.geometry.value, target.value);
    }
  }

  /** `transformer.transform`: reading the method off `None` raises AttributeError. */
  function RequireTransformer(t: Option<Transformer>): (r: Result<Transformer, Error>)
    ensures t.None? ==> r == Err(AttributeError)
    ensures t.Some? ==> r == Ok(t.value)
  {
    match t
    case None => Err(AttributeError)
    case Some(f) => Ok(f)
  }

  /** The `transformer` and `spatial_reference` attributes as `reproject_with_transform` reads them:
      either may never have been assigned at setup, and reading it then raises AttributeError. */
  function TransformerAttributes(slot: TransformerSlot, target: Option<SpatialReference>)
    : (r: Result<(Option<Transformer>, SpatialReference), Error>)
    ensures r.Ok? <==> slot.Assigned? && target.Some?
    ensures r.Err? ==> r.error == AttributeError
    ensures r.Ok? ==> r.value.0 == slot.transformer && r.value.1 == target.value
  {
    match slot
    case Unassigned => Err(AttributeError)
    case Assigned(t) =>
      match target
      case None => Err(AttributeError)
      case Some(s) => Ok((t, s))
  }

  /** The point branch: `transformer.transform(X, Y)` becomes a new point handle stamped with `target`,
      replacing the old one; nothing else changes. */
  function RebuildPoint(o: GeomObject, t: Option<Transformer>, target: SpatialReference): (r: Result<GeomObject, Error>)
    ensures t.None? ==> r == Err(AttributeError)
    ensures o.cls != PointClass || o.geometry.None? ==> r == Err(AttributeError)
    ensures t.Some? && o.cls == PointClass && o.geometry.Some? && o.geometry.value.PointHandle? ==>
      var xy := (o.geometry.value.x, o.geometry.value.y);
      && (r.Ok? <==> t.value(xy).Ok?)
      && (r.Ok? ==> r.value == o.(geometry := Some(PointHandle(t.value(xy).value.0, t.value(xy).value.1, Some(target)))))
      && (r.Err? ==> r.error == t.value(xy).error)
  {
    var f :- RequireTransformer(t);
    var x :- PointGeometry.X(o);
    var y :- PointGeometry.Y(o);
    var w :- f((x, y));
    Ok(o.(geometry := Some(PointHandle(w.0, w.1, Some(target)))))
  }

  /** The line branch: the shapely form of the geometry is rewritten vertex by vertex and its
      coordinates become a new line string stamped with `target`, replacing the old handle only once it
      is complete. Order and count are kept. */
  function RebuildLine(o: GeomObject, t: Option<Transformer>, target: SpatialReference): (r: Result<GeomObject, Error>)
    ensures t.None? ==> r == Err(AttributeError)
    ensures o.geometry.None? ==> r.Err?
    ensures r.Ok? ==> r.value.geometry.Some? && r.value.geometry.value.LineHandle? &&
                      r.value.geometry.value.srs == Some(target)
    ensures t.Some? && o.geometryType == "polyline" && o.geometry.Some? && o.geometry.value.LineHandle? ==>
      var vs := o.geometry.value.vertices;
      && (r.Ok? <==> forall i :: 0 <= i < |vs| ==> t.value(vs[i]).Ok?)
      && (r.Ok? ==> r.value == o.(geometry := Some(LineHandle(r.value.geometry.value.vertices, Some(target)))))
      && (r.Ok? ==> |r.value.geometry.value.vertices| == |vs|)
      && (r.Ok? ==> forall i :: 0 <= i < |vs| ==> t.value(vs[i]) == Ok(r.value.geometry.value.vertices[i]))
  {
    var f :- RequireTransformer(t);
    var shape :- ToShapelyOf(o);
    var mapped :- MapShape(f, shape);
    var coords :- ShapeCoords(mapped);
    Ok(o.(geometry := Some(LineHandle(coords, Some(target)))))
  }

  /** The polygon branch: the exterior ring of the shapely form is rewritten vertex by vertex and
      handed to `get_polygon`, which closes it and stamps `target`; the old handle is replaced only by
      the finished polygon. */
  function RebuildPolygon(o: GeomObject, t: Option<Transformer>, target: SpatialReference): (r: Result<GeomObject, Error>)
    ensures t.None? ==> r == Err(AttributeError)
    ensures o.geometry.None? ==> r.Err?
    ensures r.Ok? ==> r.value.geometry.Some? && r.value.geometry.value.PolygonHandle? &&
                      |r.value.geometry.value.rings| == 1 && Closed(r.value.geometry.value.rings[0]) &&
                      r.value.geometry.value.srs == Some(target)
    ensures t.Some? && o.geometryType == "polygon" && o.geometry.Some? && o.geometry.value.PolygonHandle? &&
            |o.geometry.value.rings| > 0 ==>
      var ring := o.geometry.value.rings[0];
      && (r.Ok? <==> MapVertices(t.value, ring).Ok?)
      && (r.Ok? ==> r.value == o.(geometry := Some(PolygonHandle([CloseRing(MapVertices(t.value, ring).value)], Some(target)))))
  {
    var f :- RequireTransformer(t);
    var shape :- ToShapelyOf(o);
    var mapped :- MapShape(f, shape);
    var exterior :- ShapeExterior(mapped);
    EntriesRoundTrip(exterior);
    match GetPolygon(VerticesToEntries(exterior), Some(target))
    case Ok(h) => Ok(o.(geometry := Some(h)))
    case Err(e) => Err(e)
  }

  /** Rewriting a closed ring keeps it closed, so the polygon branch carries every vertex of the ring
      over in order, with no vertex added. */
  lemma RebuildPolygonOfClosedRing(o: GeomObject, t: Transformer, target: SpatialReference)
    requires o.geometryType == "polygon" && o.geometry.Some? && o.geometry.value.PolygonHandle?
    requires |o.geometry.value.rings| > 0 && Closed(o.geometry.value.rings[0])
    requires MapVertices(t, o.geometry.value.rings[0]).Ok?
    ensures RebuildPolygon(o, Some(t), target) ==
            Ok(o.(geometry := Some(PolygonHandle([MapVertices(t, o.geometry.value.rings[0]).value], Some(target)))))
  {
    MapKeepsClosed(t, o.geometry.value.rings[0]);
  }
}

=== FILE: wrappers.dfy ===
/** Python's optional values and raised exceptions, as datatypes. */
module Wrappers {

  /** Python's `None`, or a value. */
  datatype Option<+T> = None | Some(value: T)

  /** The outcome of a call that may raise: the value it returns, or the exception it raises.
      Failure-compatible, so `:-` propagates the exception as Python does. */
  datatype Result<+T, +E> = Ok(value: T) | Err(error: E) {

    predicate IsFailure() {
      Err?
    }

    function PropagateFailure<U>(): Result<U, E>
      requires Err?
    {
      Err(error)
    }

    function Extract(): T
      requires Ok?
    {
      value
    }
  }

  /** Python truthiness of an optional list or string: present and non-empty. */
  predicate NonEmpty<T>(o: Option<seq<T>>) {
    o.Some? && |o.value| > 0
  }
}
